=== FILE: README.md ===
# MeshCanvas, modelled in Dafny

MeshCanvas paints decals onto skinned and static meshes in Unity. A canvas
keeps a list of texel extractors. On demand it bakes them into a
world-position texture: for each texel of the mesh UV layout, the world
position of the surface at that texel. A paint call then blits a brush image
through a decal shader, and the shader samples that texture to place the
decal on the surface.

The project models the bookkeeping around the GPU calls, not the rendering:

- the canvas state: the dirty flag, the disposed flag, the extractor list, the
  persistent texture and its size, and the texture bound to the decal
  material;
- the two extractors;
- the layer swap-and-restore that bakes skinned renderers;
- the brush parameters a paint call derives;
- the first version of the canvas and its providers (`MeshCanvas.cs`), next
  to the current one (`Scripts/MeshCanvas.cs`).

Engine objects are numbers, and an object is live when it is in
`Engine.alive`. Layers are an `Engine.layer` map. Every GPU or engine call
appends an event to the ghost `Engine.trace`. A call through the extractor
interface appends a marker event (`WriteCalled`, `DisposeCalled`). That lets
"every extractor is written once, in list order" be stated as
`Calls(trace segment) == WriteMarkers(list, buffer)`.

The interface `IMeshWorldTexelExtractor` is the tagged variant
`TexelExtractor.Extractor`, and the older `IWorldTexelTextureProvider` is
`LegacyProviders.Provider`. Each has one case per implementation and dispatch
methods.

Engine exceptions are modelled as a `threw` result:

- a skinned write reads `renderers[0]` first, so an empty group throws;
- a static write of a live filter without a mesh throws, because the engine
  refuses to draw a missing mesh;
- adding a destroyed mesh renderer throws when its filter is looked up;
- the skinned save loop as written reads each renderer's bounds before
  testing it for liveness, so a destroyed renderer throws there (see
  Findings).

A throwing write propagates through the rebuild and the paint: the loop
stops and the canvas stays dirty. The code has no `try`/`finally`, so a
throwing extractor also leaves the temporary buffer unreleased.

Modules:

- `UnityEngine`: the engine state and its calls.
- `LayerSwap`: the save, swap and restore loops, specified as functions over
  the layer map and the saved array, and run in place by methods.
- `StaticExtractor`, `SkinnedExtractor`, `TexelExtractor`: the extractors and
  their dispatch.
- `Brush`: the brush record and the decal parameters.
- `Canvas`: the current canvas.
- `LegacyProviders`, `LegacyCanvas`: the first version.

## Model

| member | source | states |
|---|---|---|
| LayerSwap.SaveFromSpec | Scripts/PositionProvider/SkinnedMeshTexelExtractor.cs:44-55 | Covers the save loop after it has visited the indices from last down to k. Every live renderer it visited is on the bake layer and nothing else moved. A visited live slot holds the renderer's layer at that moment: the bake layer when the same renderer was visited at a later index. Destroyed renderers' slots are untouched. |
| LayerSwap.RestoreFromSpec | Scripts/PositionProvider/SkinnedMeshTexelExtractor.cs:63-71 | The restore loop, run from last to first, gives each visited live renderer the value saved at its first index. Every other layer is untouched. |
| LayerSwap.RestoreUpToSpec | Scripts/PositionProvider/SkinnedMeshTexelExtractor.cs:63-71 | The restore loop run from first to last gives each visited live renderer the value saved at its last index. |
| LayerSwap.SwapMovesGroupToBakeLayer | Scripts/PositionProvider/SkinnedMeshTexelExtractor.cs:44-60 | At the render call, every live renderer of the group is on the bake layer and every other object is where it was. The slot of a live renderer listed once holds its layer on entry. A destroyed renderer's slot is unchanged. |
| LayerSwap.AsWrittenLayers | Scripts/PositionProvider/SkinnedMeshTexelExtractor.cs:44-71 | After save and restore as written, a live renderer is on the bake layer exactly when the group lists it twice or more. Every other layer is back to its value on entry. |
| LayerSwap.AsWrittenRestoresDistinct | MeshCanvas.cs:202-227 | When no live renderer is listed twice, save and restore as written put every layer back. |
| LayerSwap.DuplicateRendererStaysOnBakeLayer | Scripts/PositionProvider/SkinnedMeshTexelExtractor.cs:63-71 | For the group [7, 7], with renderer 7 on layer 0 and bake layer 8, renderer 7 ends on layer 8. |
| LayerSwap.RestoresAllLayers | Scripts/PositionProvider/SkinnedMeshTexelExtractor.cs:63-71 | When the restore runs in the opposite order to the save, every layer is back to its value on entry, whatever the group lists. |
| LayerSwap.SaveAndSwap | Scripts/PositionProvider/SkinnedMeshTexelExtractor.cs:44-55 | The in-place loop over the layer map and the `originalLayers` array leaves exactly what `Saved` describes. |
| LayerSwap.RestoreDescending | Scripts/PositionProvider/SkinnedMeshTexelExtractor.cs:63-71 | The in-place restore from last to first leaves exactly what `RestoreFrom` describes. |
| LayerSwap.RestoreAscending | Scripts/PositionProvider/SkinnedMeshTexelExtractor.cs:63-71 | The in-place restore from first to last leaves exactly what `RestoreUpTo` describes. |
| LayerSwap.LastDestroyed | Scripts/PositionProvider/SkinnedMeshTexelExtractor.cs:44-48 | The index of the last destroyed renderer before k: destroyed itself, with every renderer after it, up to k, live. This is the first destroyed renderer the descending save loop reaches. |
| LayerSwap.SaveAndSwapAsWritten | Scripts/PositionProvider/SkinnedMeshTexelExtractor.cs:42-55 | The in-place save loop as written throws exactly when the group is empty or holds a destroyed renderer, and leaves exactly what `SavedAsWritten` describes. |
| LayerSwap.BoundsThrowStrandsLaterRenderers | Scripts/PositionProvider/SkinnedMeshTexelExtractor.cs:42-55 | When the first renderer is live and the save loop stops at a destroyed renderer, every renderer listed after it is on the bake layer. |
| LayerSwap.DestroyedRendererStrandsLaterOne | Scripts/PositionProvider/SkinnedMeshTexelExtractor.cs:44-55 | For the group [5, 6, 7] with 6 destroyed, 5 and 7 on layer 0 and bake layer 8, renderer 7 is left on layer 8. |
| StaticExtractor.StaticMeshTexelExtractor.constructor | Scripts/PositionProvider/StaticMeshTexelExtractor.cs:14-18 | Stores the given renderer and filter. |
| StaticExtractor.StaticMeshTexelExtractor.WriteWorldTexelTexture | Scripts/PositionProvider/StaticMeshTexelExtractor.cs:20-27 | When the renderer and the filter are both live, it issues exactly one draw of the filter's shared mesh at the renderer's current local-to-world matrix; if the filter has no mesh it throws instead and issues nothing. Otherwise it issues nothing. After `Dispose` it issues nothing and does not throw. |
| StaticExtractor.StaticMeshTexelExtractor.Dispose | Scripts/PositionProvider/StaticMeshTexelExtractor.cs:29-33 | Clears both references. Since it requires only `Valid` and ensures it, a second call is allowed and leaves the same state. |
| SkinnedExtractor.SkinnedMeshTexelExtractor.constructor | Scripts/PositionProvider/SkinnedMeshTexelExtractor.cs:18-36 | Keeps the group and sizes `originalLayers` to it. Creates one game object whose camera is disabled, clears nothing, does no occlusion culling, culls spherically and has the culling mask `1 << layer` (32-bit shift). This set-up is part of the extractor's invariant, so every later write keeps it. |
| SkinnedExtractor.SkinnedMeshTexelExtractor.WriteWorldTexelTexture | Scripts/PositionProvider/SkinnedMeshTexelExtractor.cs:38-73 | After `Dispose`, does nothing. An empty group throws before any change. Otherwise there is exactly one render, into the buffer, whose culling mask holds only the bake layer, with every live renderer on that layer and its layer saved at its index. The camera is detached afterwards and every layer is back to its value on entry. A destroyed renderer is skipped, its slot and layer left alone, and never throws. This member restores in ascending order and skips destroyed renderers instead of reading their bounds (see Findings). |
| SkinnedExtractor.SkinnedMeshTexelExtractor.WriteWorldTexelTextureAsWritten | Scripts/PositionProvider/SkinnedMeshTexelExtractor.cs:38-73 | The bake with both loops descending, as written. It throws exactly when the group is empty or holds a destroyed renderer. A throw happens before the render, and the layers and slots are then as `SavedAsWritten` leaves them. Without a throw there is one render, seeing only the bake layer, and the layers end as `LayersAfterAsWritten`. |
| SkinnedExtractor.SkinnedMeshTexelExtractor.Dispose | Scripts/PositionProvider/SkinnedMeshTexelExtractor.cs:75-82 | Issues one destroy of the camera object and clears the group, the object and the camera references. |
| TexelExtractor.Write | Scripts/IMeshWorldTexelExtractor.cs:15 | A call through the interface records its marker, then only engine calls. It throws exactly for a static extractor whose live filter has no mesh, or a skinned extractor over an empty group. It leaves the layers as they were. |
| TexelExtractor.Dispose | Scripts/IMeshWorldTexelExtractor.cs:9 | A call through the interface records its marker, then only engine calls, and leaves the extractor disposed. |
| TexelExtractor.WriteMarkersStep | Scripts/MeshCanvas.cs:228-231 | One more iteration of the rebuild loop extends the recorded interface calls by exactly that extractor's marker. |
| TexelExtractor.DisposeMarkersStep | Scripts/MeshCanvas.cs:274-277 | One more iteration of the dispose loop extends the recorded interface calls by exactly that extractor's marker. |
| Brush.GetDefault | Scripts/BrushParams.cs:42-60 | No texture and a white tint (tinting by it changes no colour). Smoothing from (1, 1, 0.5) to (1, 1, 1): none on X and Y, and start at most end on every axis. Identity rotation, and a size that scales nothing. |
| Brush.PaintParameters | Scripts/MeshCanvas.cs:174-178 | The decal keeps the call's position and rotation next to the brush's rotation. The smoothing bounds are the brush's halved. With a unit brush size the size is the call's, and with a unit call size it is the brush's. With a white call colour the tint is the brush colour. In general the size is the componentwise product of the call's and the brush's sizes, and the tint that of the two colours. |
| Brush.PaintKeepsSmoothingOrder | Scripts/MeshCanvas.cs:176-177 | Halving keeps ordered smoothing bounds ordered. |
| Brush.PaintWithDefaultBrush | Scripts/MeshCanvas.cs:174-178 | With the default brush, the call's size and colour pass through unchanged, and Z fades from 0.25 to 0.5 of the decal cube. |
| Canvas.MeshCanvas.constructor | Scripts/MeshCanvas.cs:48-58 | A new canvas is dirty and live, with no extractors, no texture, no binding, the given sizes and layer name, and the bake layer not yet resolved. |
| Canvas.MeshCanvas.MarkPositionAsDirty | Scripts/MeshCanvas.cs:82-85 | Sets the dirty flag and keeps the canvas invariant. |
| Canvas.MeshCanvas.AddMeshRenderer | Scripts/MeshCanvas.cs:103-123 | A disposed canvas is unchanged. On a live canvas, a destroyed renderer throws and leaves the canvas unchanged, and so does a renderer without a live filter, without the throw. Otherwise exactly one static extractor for the renderer and its filter is appended, the rest of the list is kept, and the canvas is dirty, with its texture, binding and bake layer as they were. |
| Canvas.MeshCanvas.Append | Scripts/MeshCanvas.cs:115-116 | Appends the extractor, takes in its objects, and marks the canvas dirty. |
| Canvas.MeshCanvas.AddSkinnedRenderers | Scripts/MeshCanvas.cs:131-152 | A disposed canvas is unchanged. Otherwise the layer is looked up by name only on the first call. One skinned extractor for the group on that layer is appended, with the canvas made dirty, exactly when the layer is at least 0. |
| Canvas.MeshCanvas.ReleaseWorldTexture | Scripts/MeshCanvas.cs:263-270 | Leaves no texture. It issues one release when there was a texture and nothing otherwise, so a second call does nothing. |
| Canvas.MeshCanvas.UpdatePositionIfDirty | Scripts/MeshCanvas.cs:219-256 | A clean or disposed canvas is a no-op. Otherwise the buffer is taken and cleared, and every extractor is written once in list order. The rebuild throws exactly when one extractor throws, and then stops there, dirty, with texture and binding as they were. Otherwise the texture is reallocated only when missing or of another size, the decal material is bound to it, the buffer is expanded and released, and the canvas is clean. Layers are unchanged. |
| Canvas.MeshCanvas.Rebuild | Scripts/MeshCanvas.cs:223-254 | The same for a dirty live canvas. A created texture is never the buffer. |
| Canvas.MeshCanvas.WriteAndExpand | Scripts/MeshCanvas.cs:228-254 | Once the buffer is cleared: writes every extractor once in list order. It throws exactly when one throws, and then stops there, dirty, with texture and binding as they were. Otherwise the texture is made to fit, the buffer is expanded into it and released, and the canvas is clean. |
| Canvas.MeshCanvas.ExpandInto | Scripts/MeshCanvas.cs:233-254 | Makes the texture fit, binds the decal material to it, expands the buffer into it, releases the buffer and leaves the canvas clean. A texture that already fits is kept. |
| Canvas.MeshCanvas.FitWorldTexture | Scripts/MeshCanvas.cs:233-249 | Keeps a texture that fits, along with its binding. Otherwise it releases the texture of the other size, if any, creates a fresh texture of the configured size and binds the decal material to it. |
| Canvas.MeshCanvas.WriteProviders | Scripts/MeshCanvas.cs:228-231 | Writes each extractor once, in list order, up to and including the first that throws. It throws exactly when one of them throws, and leaves the layers unchanged. |
| Canvas.MeshCanvas.WriteOne | Scripts/MeshCanvas.cs:230 | One loop iteration: that extractor's marker and engine calls, throwing exactly when it throws. |
| Canvas.MeshCanvas.UpdatePosition | Scripts/MeshCanvas.cs:91-95 | On a live canvas this always rebuilds, and it throws exactly when an extractor throws; a throw leaves the canvas dirty and its texture and the decal material's binding as they were. Otherwise the result is a complete rebuild: prologue on a buffer, every extractor's marker in order, and the buffer released last. The canvas is then clean, with a texture of the configured size. A texture the canvas already held is kept, so it is allocated at most once between disposals. The resolved bake layer is kept. |
| Canvas.MeshCanvas.Paint | Scripts/MeshCanvas.cs:163-181 | A disposed canvas is unchanged. A clean canvas issues no rebuild. A dirty one first rebuilds completely and throws exactly when an extractor throws, staying dirty with its texture and binding as they were. Without a throw, the decal parameters and one blit of the brush image into the target follow, and the canvas is left clean with a texture of the configured size. A texture the canvas already held is kept. The list and the resolved bake layer never change. |
| Canvas.MeshCanvas.DisposeTexelProviders | Scripts/MeshCanvas.cs:272-280 | Disposes every extractor exactly once, in list order, then empties the list. |
| Canvas.MeshCanvas.Dispose | Scripts/MeshCanvas.cs:69-76 | The first call runs `OnDispose` (lines 282-290): it releases the texture, disposes every extractor once in order, empties the list and marks the canvas disposed. A second call issues nothing and changes nothing. |
| Canvas.RebuildIsComplete | Scripts/MeshCanvas.cs:221-255 | The trace of a rebuild that ran to the end opens with the prologue and makes exactly the extractor calls of the list on the buffer. It closes by releasing that buffer. |
| LegacyProviders.StaticMeshTexelTextureProvider.constructor | MeshCanvas.cs:146-150 | Stores the renderer and the filter, which may be missing. |
| LegacyProviders.StaticMeshTexelTextureProvider.WriteWorldTexelTexture | MeshCanvas.cs:152-159 | When the renderer and the filter are both live, it issues exactly one draw; if the filter has no mesh it throws instead and issues nothing. Otherwise it issues nothing. |
| LegacyProviders.SkinnedMeshTexelTextureProvider.constructor | MeshCanvas.cs:178-196 | Same camera set-up as the current extractor, kept as part of the provider's invariant. |
| LegacyProviders.SkinnedMeshTexelTextureProvider.WriteWorldTexelTexture | MeshCanvas.cs:198-228 | It throws exactly when the group is empty or holds a destroyed renderer. A throw happens before the render, and the layers and slots are then as `SavedAsWritten` leaves them. Otherwise one render runs, seeing only the bake layer, with the group on that layer, and the camera is left pointed at the buffer. The layers end as `LayersAfterAsWritten`: back to their values on entry when no renderer is listed twice. |
| LegacyProviders.SkinnedMeshTexelTextureProvider.Dispose | MeshCanvas.cs:230-233 | Issues one destroy of the camera object and clears nothing. |
| LegacyProviders.Write | MeshCanvas.cs:6-9 | A call through the interface records its marker, then only engine calls. It throws exactly for a static provider whose live filter has no mesh, and for a skinned provider over an empty group or a group with a destroyed renderer. It keeps the layers when the provider restores them. |
| LegacyProviders.WriteMarkersStep | MeshCanvas.cs:88-91 | One more iteration of the rebuild loop extends the recorded interface calls by exactly that provider's marker. |
| LegacyCanvas.MeshCanvas.constructor | MeshCanvas.cs:33-41 | A new canvas is dirty, with the given sizes and layer, no providers, no texture and no binding. |
| LegacyCanvas.MeshCanvas.MarkPositionAsDirty | MeshCanvas.cs:48-51 | Sets the dirty flag. |
| LegacyCanvas.MeshCanvas.Append | MeshCanvas.cs:61-62 | Appends the provider and marks the canvas dirty. |
| LegacyCanvas.MeshCanvas.AddSkinnedRenderers | MeshCanvas.cs:59-63 | Always appends exactly one skinned provider for the group on the configured layer. There is no disposed or layer check, and an empty group is accepted. |
| LegacyCanvas.MeshCanvas.AddMeshRenderer | MeshCanvas.cs:65-69 | A destroyed renderer throws and leaves the canvas unchanged. Otherwise exactly one static provider is appended, also when the renderer has no filter. |
| LegacyCanvas.MeshCanvas.ReleaseWorldTexture | MeshCanvas.cs:112-119 | Leaves no texture, with one release when there was one. |
| LegacyCanvas.MeshCanvas.UpdateWorldTexture | MeshCanvas.cs:79-110 | Rebuilds on every call, since the canvas is always dirty, and writes every provider once in order. On a throw it stops there. Otherwise the texture is reallocated only when missing or of another size, and the buffer is expanded and released. A created texture leaves the decal material bound to that buffer. The canvas stays dirty. Layers are back only when every provider restores them. |
| LegacyCanvas.MeshCanvas.WriteAndExpand | MeshCanvas.cs:88-109 | Once the buffer is cleared: writes every provider once in list order. It throws exactly when one throws, and then stops there with texture and binding as they were. Otherwise the texture is made to fit and the buffer is expanded into it and released. |
| LegacyCanvas.MeshCanvas.ExpandInto | MeshCanvas.cs:93-109 | Makes the texture fit, expands the buffer into it and releases it. A created texture leaves the decal material bound to the buffer; a texture that already fits keeps texture and binding. |
| LegacyCanvas.MeshCanvas.FitWorldTexture | MeshCanvas.cs:93-105 | Keeps a texture that fits. Otherwise it creates one of the configured size and binds the buffer, not the new texture, to the decal material. |
| LegacyCanvas.MeshCanvas.WriteProviders | MeshCanvas.cs:88-91 | Writes each provider once, in list order, up to and including the first that throws. |
| LegacyCanvas.MeshCanvas.WriteOne | MeshCanvas.cs:90 | One loop iteration: that provider's marker and engine calls. |
| LegacyCanvas.MeshCanvas.UpdatePositionTexture | MeshCanvas.cs:53-57 | Rebuilds, calling every provider once in order, and throws exactly when one throws; a throw leaves the texture and the binding as they were. Otherwise the trace is the full rebuild. A texture the canvas already held is kept, and the layers are back when every provider restores them. |
| LegacyCanvas.MeshCanvas.DrawDecal | MeshCanvas.cs:71-77 | Every call rebuilds first, whatever came before, calling every provider once in order. A provider that throws ends the trace after the writes and leaves the texture and the binding as they were. Otherwise the rebuild completes; then a destroyed decal transform throws, since its matrix is read next, and the trace ends with the rebuild. With a live transform, the decal transform and sprite are set and one blit into the texture follows. The call throws exactly in these two cases. A texture the canvas already held is kept. |
| LegacyCanvas.MeshCanvas.Dispose | MeshCanvas.cs:126-135 | Releases only the texture: the providers stay in the list and are never disposed. A second call issues nothing. |

## Left out

- The `Paint` overloads with default arguments (Scripts/MeshCanvas.cs:187-217) are not modelled. The five-argument overload at lines 214-217 calls itself with the same arguments and never terminates, and the other three route through it.
- Floating point, `Matrix4x4.TRS` and its inverse, and the quaternion product are left out. The decal transform is kept as its factors (position, call rotation, brush rotation, size), and reals are exact.
- Bounds and camera placement (`Bounds.Encapsulate`, the offset from the bounds centre) are left out. Only the fact that reading the bounds of a destroyed renderer throws is kept. A null renderer array, or a null entry in it, passed by a caller is not modelled.
- `SkinnedExtractor.SkinnedMeshTexelExtractor.constructor` keeps a copy of the group. The source keeps the caller's array (Scripts/PositionProvider/SkinnedMeshTexelExtractor.cs:20), so a caller that later changes an entry of that array changes the group. Array aliasing across the interface is not modelled.
- `LegacyProviders.SkinnedMeshTexelTextureProvider.constructor` keeps a copy of the group, for the same reason (MeshCanvas.cs:180).
- `LegacyProviders.SkinnedMeshTexelTextureProvider.WriteWorldTexelTexture` moves the group onto the configured bake layer whatever its value. Unity's `GameObject.layer` setter accepts only 0 to 31; for any other value it logs an error and leaves the layer as it was. The legacy canvas takes the layer as any integer (MeshCanvas.cs:33, 211), and that rejection is not modelled.
- `TexelExtractor.Write` dispatches a skinned extractor to the corrected bake `SkinnedExtractor.SkinnedMeshTexelExtractor.WriteWorldTexelTexture` (see Findings), not to the bake as written. Its clause that the layers are unchanged, and its throw condition, are those of the corrected bake. In the source, a live renderer listed twice in one group stays on the bake layer, and a destroyed renderer in a group throws in the save loop.
- `Canvas.MeshCanvas.WriteOne` is modelled over the corrected skinned bake, like `TexelExtractor.Write`, so its layer and throw clauses do not hold for the source over a group with a duplicate or a destroyed renderer.
- `Canvas.MeshCanvas.WriteProviders` is modelled over the corrected skinned bake, so its layer and throw clauses do not hold for the source over a group with a duplicate or a destroyed renderer.
- `Canvas.MeshCanvas.Rebuild` is modelled over the corrected skinned bake, so its layer and throw clauses do not hold for the source over a group with a duplicate or a destroyed renderer.
- `Canvas.MeshCanvas.WriteAndExpand` is modelled over the corrected skinned bake, so its layer and throw clauses do not hold for the source over a group with a duplicate or a destroyed renderer.
- `Canvas.MeshCanvas.UpdatePositionIfDirty` is modelled over the corrected skinned bake, so its layer and throw clauses do not hold for the source over a group with a duplicate or a destroyed renderer.
- `Canvas.MeshCanvas.UpdatePosition` is modelled over the corrected skinned bake, so its layer and throw clauses do not hold for the source over a group with a duplicate or a destroyed renderer.
- `Canvas.MeshCanvas.Paint` is modelled over the corrected skinned bake, so its layer and throw clauses do not hold for the source over a group with a duplicate or a destroyed renderer.
- The shaders and what the GPU calls do to pixels (position bake, border expansion, decal falloff) are left out. Each call is only an event in the trace.
- The lazily created shared materials, `Shader.Find` and texture sampling settings (mip maps, anti-aliasing, filter mode, anisotropy) are left out.
- The finalizers, `GC.SuppressFinalize`, `hideFlags`, `SetActive(false)`, `depthTextureMode`, `backgroundColor` and logging are left out. A log is a call that changes nothing.
- A failure inside the engine's render call is not modelled: `Engine.Render` always returns.
- The deferred destruction of `Object.Destroy` is not modelled. Using a legacy skinned provider after its `Dispose` is not modelled either; the legacy canvas never does it.
- `StaticMeshTexelTextureProvider.Dispose` (MeshCanvas.cs:161-164) does nothing and is never called, so it has no member.
- The current canvas resolves its bake layer through `Lazy<int>`. This is modelled as an `Option<int>` field filled on the first skinned add, which is the only place the value is read.
- `Canvas.MeshCanvas.Rebuild`, `WriteAndExpand`, `ExpandInto`, `FitWorldTexture`, `WriteProviders`, `WriteOne` and `Append` (and their `LegacyCanvas` counterparts) are parts of the source methods, split out so that each proof stays small.
- The engine's texture pool is not modelled: `RenderTexture.GetTemporary` always hands out a fresh identifier.

## Findings

| source | as written | input that shows it | evidently intended | confidence | as-written member | corrected member |
|---|---|---|---|---|---|---|
| Scripts/PositionProvider/SkinnedMeshTexelExtractor.cs:63-71 | The restore loop visits the group from last to first, like the save loop. A renderer listed twice saves the bake layer at its earlier index, and that value is restored last. | The group [7, 7], with live renderer 7 on layer 0 and bake layer 8: renderer 7 ends on layer 8. | Every renderer back on its layer on entry, which restoring in the opposite order achieves. The legacy provider (MeshCanvas.cs:219-227) has the same loop and is modelled as written. | medium, not executed | LayerSwap.DuplicateRendererStaysOnBakeLayer | SkinnedExtractor.SkinnedMeshTexelExtractor.WriteWorldTexelTexture |
| MeshCanvas.cs:104 | A newly created texture binds the temporary buffer, not the new texture, as the decal material's `_PositionTex`. The buffer is released at line 108. | The first `DrawDecal` on any canvas: the material samples the released buffer, and never the persistent texture. | Bind the persistent texture, as Scripts/MeshCanvas.cs:248 does. | high, not executed | LegacyCanvas.MeshCanvas.UpdateWorldTexture | Canvas.MeshCanvas.Rebuild |
| MeshCanvas.cs:79-110 | The rebuild never clears the dirty flag, so every decal re-bakes every provider. | Two `DrawDecal` calls on an unchanged canvas: both rebuild. | A rebuild leaves the canvas clean, as Scripts/MeshCanvas.cs:254 does. | high, not executed | LegacyCanvas.MeshCanvas.DrawDecal | Canvas.MeshCanvas.Paint |
| Scripts/PositionProvider/SkinnedMeshTexelExtractor.cs:42-55 | The save loop reads a renderer's bounds (line 48) before its liveness test at line 50, and reads `renderers[0].bounds` before the loop (line 42). Reading the bounds of a destroyed renderer throws. The write then stops inside the save loop, and the renderers it has already moved stay on the bake layer. | The group [5, 6, 7] with renderer 6 destroyed, 5 and 7 on layer 0, and bake layer 8: renderer 7 is moved to layer 8, the write throws at 6, and 7 stays on layer 8. | Destroyed renderers skipped, as the liveness tests at lines 50 and 67 intend, with every layer back. The legacy provider (MeshCanvas.cs:200-213) has the same loop and is modelled as written. | medium, not executed | LayerSwap.DestroyedRendererStrandsLaterOne | SkinnedExtractor.SkinnedMeshTexelExtractor.WriteWorldTexelTexture |

=== FILE: brush_params.dfy ===
/**
 * Brush settings and the decal parameters a paint call derives from them.
 * Unity's single-precision floats are modelled as exact reals.
 */
module Brush {
  import opened UnityEngine

  /**
   * A reusable brush: the image to paint (`None` is a null texture), the tint,
   * the per-axis smoothing bounds in the brush's local cube (full intensity
   * inside `smoothingStart`, nothing outside `smoothingEnd`), and the base
   * rotation and size of the decal.
   */
  datatype BrushParams = BrushParams(
    texture: Option<TextureId>,
    color: Color,
    smoothingStart: Vector3,
    smoothingEnd: Vector3,
    rotation: Quaternion,
    size: Vector3)

  /**
   * The default brush: white, no smoothing on X and Y, smoothing on Z from
   * 0.5 to 1, no rotation, no scaling, and no texture assigned.
   */
  function GetDefault(): (b: BrushParams)
    ensures b.texture == None
    ensures forall c :: Tint(c, b.color) == c
    ensures b.smoothingStart == Vector3(1.0, 1.0, 0.5) && b.smoothingEnd == One
    ensures b.smoothingStart.x == b.smoothingEnd.x && b.smoothingStart.y == b.smoothingEnd.y
    ensures AtMost(b.smoothingStart, b.smoothingEnd)
    ensures b.rotation == Identity
    ensures forall v :: Scale(v, b.size) == v
  {
    BrushParams(None, White, Vector3(1.0, 1.0, 0.5), One, Identity, One)
  }

  /**
   * The decal material state a paint call sets: the decal transform combines
   * the call's position, rotation and size with the brush's base rotation and
   * size; the smoothing bounds are halved (the brush cube spans -0.5 to 0.5);
   * the tint is the call colour times the brush colour.
   */
  function PaintParameters(brush: BrushParams, color: Color, position: Vector3, rotation: Quaternion, size: Vector3): (d: DecalParameters)
    ensures d.position == position && d.rotation == rotation && d.baseRotation == brush.rotation
    ensures Times(d.smoothingMin, 2.0) == brush.smoothingStart && Times(d.smoothingMax, 2.0) == brush.smoothingEnd
    ensures d.size == Scale(size, brush.size) && d.color == Tint(color, brush.color)
    ensures brush.size == One ==> d.size == size
    ensures size == One ==> d.size == brush.size
    ensures color == White ==> d.color == brush.color
  {
    DecalParameters(
      position,
      rotation,
      brush.rotation,
      Scale(size, brush.size),
      Times(brush.smoothingStart, 0.5),
      Times(brush.smoothingEnd, 0.5),
      Tint(color, brush.color))
  }

  /** Halving keeps the smoothing bounds ordered: a brush that fades out outside where it starts fading keeps doing so. */
  lemma PaintKeepsSmoothingOrder(brush: BrushParams, color: Color, position: Vector3, rotation: Quaternion, size: Vector3)
    requires AtMost(brush.smoothingStart, brush.smoothingEnd)
    ensures var d := PaintParameters(brush, color, position, rotation, size);
      AtMost(d.smoothingMin, d.smoothingMax)
  {
  }

  /**
   * Painting with the default brush passes the call's size and colour through
   * unchanged and fades along Z from 0.25 to 0.5 of the decal cube.
   */
  lemma PaintWithDefaultBrush(color: Color, position: Vector3, rotation: Quaternion, size: Vector3)
    ensures var d := PaintParameters(GetDefault(), color, position, rotation, size);
      && d.size == size && d.color == color && d.baseRotation == Identity
      && d.smoothingMin == Vector3(0.5, 0.5, 0.25) && d.smoothingMax == Vector3(0.5, 0.5, 0.5)
  {
  }
}

=== FILE: layer_swap.dfy ===
/**
 * The layer swap of the skinned extractors: before the bake render every live
 * renderer of the group is moved to the bake layer, its previous layer saved in
 * `originalLayers`; after the render the saved layers are put back. Both loops
 * of the source visit the indices from last to first and test each renderer
 * for liveness before touching its layer, but the save loop reads the
 * renderer's bounds before that test, and reading the bounds of a destroyed
 * renderer throws.
 *
 * The loops are specified by functions over values (the layer map and the
 * saved-layer sequence); the methods at the end run them in place on the
 * engine and the `originalLayers` array and are proved equal to the functions.
 */
module LayerSwap {
  import opened UnityEngine

  /** The layer map of the scene and the contents of `originalLayers`. */
  datatype Swap = Swap(layers: map<ObjectId, int>, saved: seq<int>)

  /** Every live renderer of the group has a layer. */
  predicate Tracked(rs: seq<ObjectId>, alive: set<ObjectId>, layers: map<ObjectId, int>) {
    forall i | 0 <= i < |rs| && rs[i] in alive :: rs[i] in layers
  }

  /** `r` is listed in the group at index `lo` or later. */
  predicate Listed(rs: seq<ObjectId>, r: ObjectId, lo: nat) {
    exists i | lo <= i < |rs| :: rs[i] == r
  }

  /**
   * The save-and-swap loop after it has visited the indices `|rs| - 1` down to
   * `k`: a live renderer's layer is saved at its index, then set to `bake`.
   */
  function SaveFrom(rs: seq<ObjectId>, alive: set<ObjectId>, bake: int, s0: Swap, k: nat): (s: Swap)
    requires k <= |rs| && |s0.saved| == |rs| && Tracked(rs, alive, s0.layers)
    ensures s.layers.Keys == s0.layers.Keys && |s.saved| == |rs|
    decreases |rs| - k
  {
    if k == |rs| then s0
    else
      var s := SaveFrom(rs, alive, bake, s0, k + 1);
      if rs[k] in alive then Swap(s.layers[rs[k] := bake], s.saved[k := s.layers[rs[k]]])
      else s
  }

  /**
   * The restore loop as the source writes it, after it has visited the indices
   * `|rs| - 1` down to `k`: a live renderer's layer is set to its saved value.
   */
  function RestoreFrom(rs: seq<ObjectId>, alive: set<ObjectId>, saved: seq<int>, layers: map<ObjectId, int>, k: nat): (m: map<ObjectId, int>)
    requires k <= |rs| && |saved| == |rs| && Tracked(rs, alive, layers)
    ensures m.Keys == layers.Keys
    decreases |rs| - k
  {
    if k == |rs| then layers
    else
      var m := RestoreFrom(rs, alive, saved, layers, k + 1);
      if rs[k] in alive then m[rs[k] := saved[k]] else m
  }

  /**
   * The restore loop run in the opposite order to the save loop, after it has
   * visited the indices `0` up to `k - 1`.
   */
  function RestoreUpTo(rs: seq<ObjectId>, alive: set<ObjectId>, saved: seq<int>, layers: map<ObjectId, int>, k: nat): (m: map<ObjectId, int>)
    requires k <= |rs| && |saved| == |rs| && Tracked(rs, alive, layers)
    ensures m.Keys == layers.Keys
  {
    if k == 0 then layers
    else
      var m := RestoreUpTo(rs, alive, saved, layers, k - 1);
      if rs[k - 1] in alive then m[rs[k - 1] := saved[k - 1]] else m
  }

  /** The first index at or after `k` where `r` is listed. */
  function FirstIndex(rs: seq<ObjectId>, r: ObjectId, k: nat): (f: nat)
    requires Listed(rs, r, k)
    ensures k <= f < |rs| && rs[f] == r
    ensures forall j | k <= j < f :: rs[j] != r
    decreases |rs| - k
  {
    if rs[k] == r then k else FirstIndex(rs, r, k + 1)
  }

  /** The last index before `k` where `r` is listed. */
  function LastIndex(rs: seq<ObjectId>, r: ObjectId, k: nat): (l: nat)
    requires k <= |rs| && exists i | 0 <= i < k :: rs[i] == r
    ensures l < k && rs[l] == r
    ensures forall j | l < j < k :: rs[j] != r
  {
    if rs[k - 1] == r then k - 1 else LastIndex(rs, r, k - 1)
  }

  /** The layers and saved values once the whole save-and-swap loop has run. */
  function Saved(rs: seq<ObjectId>, alive: set<ObjectId>, bake: int, layers: map<ObjectId, int>, saved: seq<int>): (s: Swap)
    requires |saved| == |rs| && Tracked(rs, alive, layers)
  {
    SaveFrom(rs, alive, bake, Swap(layers, saved), 0)
  }

  /** Some renderer of the group has been destroyed. */
  predicate HasDestroyed(rs: seq<ObjectId>, alive: set<ObjectId>) {
    exists i | 0 <= i < |rs| :: rs[i] !in alive
  }

  /**
   * The save loop as written throws: it reads `rs[0]` first, which fails on
   * an empty group, and the bounds of every renderer, which fail on a
   * destroyed one.
   */
  predicate SaveThrows(rs: seq<ObjectId>, alive: set<ObjectId>) {
    rs == [] || HasDestroyed(rs, alive)
  }

  /** The last index before `k` of a destroyed renderer. */
  function LastDestroyed(rs: seq<ObjectId>, alive: set<ObjectId>, k: nat): (d: nat)
    requires k <= |rs| && exists i | 0 <= i < k :: rs[i] !in alive
    ensures d < k && rs[d] !in alive
    ensures forall j | d < j < k :: rs[j] in alive
  {
    if rs[k - 1] !in alive then k - 1 else LastDestroyed(rs, alive, k - 1)
  }

  /**
   * The layers and saved values the save loop as written leaves. A destroyed
   * `rs[0]` throws before any change; otherwise the loop, running from the
   * last index, stops at the last destroyed renderer, after it has moved
   * every renderer listed behind it; with no destroyed renderer it runs to
   * the end.
   */
  function SavedAsWritten(rs: seq<ObjectId>, alive: set<ObjectId>, bake: int, layers: map<ObjectId, int>, saved: seq<int>): (s: Swap)
    requires |saved| == |rs| && Tracked(rs, alive, layers)
    ensures s.layers.Keys == layers.Keys && |s.saved| == |rs|
  {
    if rs == [] || rs[0] !in alive then Swap(layers, saved)
    else if HasDestroyed(rs, alive) then SaveFrom(rs, alive, bake, Swap(layers, saved), LastDestroyed(rs, alive, |rs|) + 1)
    else Saved(rs, alive, bake, layers, saved)
  }

  /** The layers after the save-and-swap loop and the restore loop as written. */
  function LayersAfterAsWritten(rs: seq<ObjectId>, alive: set<ObjectId>, bake: int, layers: map<ObjectId, int>, saved: seq<int>): map<ObjectId, int>
    requires |saved| == |rs| && Tracked(rs, alive, layers)
  {
    var s := Saved(rs, alive, bake, layers, saved);
    RestoreFrom(rs, alive, s.saved, s.layers, 0)
  }

  /** The layers after the save-and-swap loop and the restore loop in reverse order. */
  function LayersAfter(rs: seq<ObjectId>, alive: set<ObjectId>, bake: int, layers: map<ObjectId, int>, saved: seq<int>): map<ObjectId, int>
    requires |saved| == |rs| && Tracked(rs, alive, layers)
  {
    var s := Saved(rs, alive, bake, layers, saved);
    RestoreUpTo(rs, alive, s.saved, s.layers, |rs|)
  }

  /**
   * What the save-and-swap loop leaves after visiting `|rs| - 1` down to `k`:
   * the live renderers it visited are on the bake layer and nothing else moved;
   * at a visited live index it saved the layer the renderer had at that moment,
   * which is the bake layer when the same renderer was already visited at a
   * later index; skipped indices keep their old saved value.
   */
  lemma {:induction false} SaveFromSpec(rs: seq<ObjectId>, alive: set<ObjectId>, bake: int, s0: Swap, k: nat)
    requires k <= |rs| && |s0.saved| == |rs| && Tracked(rs, alive, s0.layers)
    ensures var s := SaveFrom(rs, alive, bake, s0, k);
      && (forall r | r in s.layers :: s.layers[r] == if r in alive && Listed(rs, r, k) then bake else s0.layers[r])
      && (forall i | k <= i < |rs| && rs[i] in alive ::
            s.saved[i] == if Listed(rs, rs[i], i + 1) then bake else s0.layers[rs[i]])
      && (forall i | 0 <= i < |rs| && (i < k || rs[i] !in alive) :: s.saved[i] == s0.saved[i])
    decreases |rs| - k
  {
    if k < |rs| {
      SaveFromSpec(rs, alive, bake, s0, k + 1);
      var s := SaveFrom(rs, alive, bake, s0, k);
      forall r | r in s.layers
        ensures s.layers[r] == if r in alive && Listed(rs, r, k) then bake else s0.layers[r]
      {
        if r != rs[k] {
          assert Listed(rs, r, k) <==> Listed(rs, r, k + 1) by {
            if Listed(rs, r, k) {
              var i :| k <= i < |rs| && rs[i] == r;
              assert i != k;
            }
          }
        }
      }
    }
  }

  /**
   * What the restore loop as written leaves after visiting `|rs| - 1` down to
   * `k`: a live renderer it visited has the value saved at its FIRST index in
   * the visited range, because that index is visited last.
   */
  lemma {:induction false} RestoreFromSpec(rs: seq<ObjectId>, alive: set<ObjectId>, saved: seq<int>, layers: map<ObjectId, int>, k: nat)
    requires k <= |rs| && |saved| == |rs| && Tracked(rs, alive, layers)
    ensures var m := RestoreFrom(rs, alive, saved, layers, k);
      forall r | r in m :: m[r] == if r in alive && Listed(rs, r, k) then saved[FirstIndex(rs, r, k)] else layers[r]
    decreases |rs| - k
  {
    if k < |rs| {
      RestoreFromSpec(rs, alive, saved, layers, k + 1);
      var m := RestoreFrom(rs, alive, saved, layers, k);
      forall r | r in m
        ensures m[r] == if r in alive && Listed(rs, r, k) then saved[FirstIndex(rs, r, k)] else layers[r]
      {
        if r != rs[k] {
          assert Listed(rs, r, k) <==> Listed(rs, r, k + 1) by {
            if Listed(rs, r, k) {
              var i :| k <= i < |rs| && rs[i] == r;
              assert i != k;
            }
          }
        }
      }
    }
  }

  /**
   * What the reversed restore loop leaves after visiting `0` up to `k - 1`: a
   * live renderer it visited has the value saved at its LAST index in the
   * visited range.
   */
  lemma {:induction false} RestoreUpToSpec(rs: seq<ObjectId>, alive: set<ObjectId>, saved: seq<int>, layers: map<ObjectId, int>, k: nat)
    requires k <= |rs| && |saved| == |rs| && Tracked(rs, alive, layers)
    ensures var m := RestoreUpTo(rs, alive, saved, layers, k);
      forall r | r in m ::
        m[r] == if r in alive && (exists i | 0 <= i < k :: rs[i] == r) then saved[LastIndex(rs, r, k)] else layers[r]
  {
    if k > 0 {
      RestoreUpToSpec(rs, alive, saved, layers, k - 1);
      var m := RestoreUpTo(rs, alive, saved, layers, k);
      forall r | r in m
        ensures m[r] == if r in alive && (exists i | 0 <= i < k :: rs[i] == r) then saved[LastIndex(rs, r, k)] else layers[r]
      {
        if r != rs[k - 1] {
          assert (exists i | 0 <= i < k :: rs[i] == r) <==> (exists i | 0 <= i < k - 1 :: rs[i] == r) by {
            if exists i | 0 <= i < k :: rs[i] == r {
              var i :| 0 <= i < k && rs[i] == r;
              assert i != k - 1;
            }
          }
        }
      }
    }
  }

  /**
   * At the moment of the render call every live renderer of the group is on
   * the bake layer, every other object is where it was, and the slot of each
   * live renderer listed once holds its layer on entry.
   */
  lemma SwapMovesGroupToBakeLayer(rs: seq<ObjectId>, alive: set<ObjectId>, bake: int, layers: map<ObjectId, int>, saved: seq<int>)
    requires |saved| == |rs| && Tracked(rs, alive, layers)
    ensures var s := Saved(rs, alive, bake, layers, saved);
      && (forall i | 0 <= i < |rs| && rs[i] in alive :: s.layers[rs[i]] == bake)
      && (forall r | r in layers && !(r in alive && Listed(rs, r, 0)) :: s.layers[r] == layers[r])
      && (forall i | 0 <= i < |rs| && rs[i] in alive && !Listed(rs, rs[i], i + 1) :: s.saved[i] == layers[rs[i]])
      && (forall i | 0 <= i < |rs| && rs[i] !in alive :: s.saved[i] == saved[i])
  {
    SaveFromSpec(rs, alive, bake, Swap(layers, saved), 0);
  }

  /**
   * The save loop and the restore loop as written leave a live renderer on the
   * bake layer exactly when the group lists it twice or more; every other
   * layer is back to its value on entry.
   */
  lemma AsWrittenLayers(rs: seq<ObjectId>, alive: set<ObjectId>, bake: int, layers: map<ObjectId, int>, saved: seq<int>)
    requires |saved| == |rs| && Tracked(rs, alive, layers)
    ensures var m := LayersAfterAsWritten(rs, alive, bake, layers, saved);
      && m.Keys == layers.Keys
      && forall r | r in m ::
           m[r] == if r in alive && exists i, j | 0 <= i < j < |rs| :: rs[i] == r && rs[j] == r then bake else layers[r]
  {
    var s := Saved(rs, alive, bake, layers, saved);
    SaveFromSpec(rs, alive, bake, Swap(layers, saved), 0);
    RestoreFromSpec(rs, alive, s.saved, s.layers, 0);
    var m := LayersAfterAsWritten(rs, alive, bake, layers, saved);
    forall r | r in m
      ensures m[r] == if r in alive && exists i, j | 0 <= i < j < |rs| :: rs[i] == r && rs[j] == r then bake else layers[r]
    {
      if r in alive && Listed(rs, r, 0) {
        var f := FirstIndex(rs, r, 0);
        if exists i, j | 0 <= i < j < |rs| :: rs[i] == r && rs[j] == r {
          var i, j :| 0 <= i < j < |rs| && rs[i] == r && rs[j] == r;
          assert Listed(rs, r, f + 1);
        } else {
          assert !Listed(rs, r, f + 1);
        }
      }
    }
  }

  /** When no live renderer is listed twice, the layers as written are all restored. */
  lemma AsWrittenRestoresDistinct(rs: seq<ObjectId>, alive: set<ObjectId>, bake: int, layers: map<ObjectId, int>, saved: seq<int>)
    requires |saved| == |rs| && Tracked(rs, alive, layers)
    requires forall i, j | 0 <= i < j < |rs| && rs[i] in alive :: rs[i] != rs[j]
    ensures LayersAfterAsWritten(rs, alive, bake, layers, saved) == layers
  {
    AsWrittenLayers(rs, alive, bake, layers, saved);
  }

  /**
   * A renderer listed twice in one group stays on the bake layer: the group
   * [7, 7] with renderer 7 on layer 0 and bake layer 8 ends with renderer 7
   * on layer 8.
   */
  lemma DuplicateRendererStaysOnBakeLayer()
    ensures LayersAfterAsWritten([7, 7], {7}, 8, map[7 := 0], [0, 0]) == map[7 := 8]
  {
    AsWrittenLayers([7, 7], {7}, 8, map[7 := 0], [0, 0]);
    var rs: seq<ObjectId> := [7, 7];
    assert rs[0] == 7 && rs[1] == 7;
  }

  /**
   * When the save loop as written stops at a destroyed renderer, every
   * renderer listed behind it has been moved to the bake layer, and the
   * restore loop never runs to move it back.
   */
  lemma {:induction false} BoundsThrowStrandsLaterRenderers(rs: seq<ObjectId>, alive: set<ObjectId>, bake: int, layers: map<ObjectId, int>, saved: seq<int>)
    requires |saved| == |rs| && Tracked(rs, alive, layers) && HasDestroyed(rs, alive) && rs[0] in alive
    ensures var s := SavedAsWritten(rs, alive, bake, layers, saved);
      forall i | LastDestroyed(rs, alive, |rs|) < i < |rs| :: s.layers[rs[i]] == bake
  {
    var d := LastDestroyed(rs, alive, |rs|);
    var s0 := Swap(layers, saved);
    assert SavedAsWritten(rs, alive, bake, layers, saved) == SaveFrom(rs, alive, bake, s0, d + 1);
    SaveFromSpec(rs, alive, bake, s0, d + 1);
    var s := SaveFrom(rs, alive, bake, s0, d + 1);
    forall i | d < i < |rs|
      ensures s.layers[rs[i]] == bake
    {
      assert Listed(rs, rs[i], d + 1);
    }
  }

  /**
   * The group [5, 6, 7] with renderer 6 destroyed, 5 and 7 on layer 0 and
   * bake layer 8: the save loop moves 7, then throws at 6, leaving 7 on
   * layer 8.
   */
  lemma DestroyedRendererStrandsLaterOne()
    ensures SavedAsWritten([5, 6, 7], {5, 7}, 8, map[5 := 0, 7 := 0], [0, 0, 0]).layers == map[5 := 0, 7 := 8]
  {
    var rs: seq<ObjectId> := [5, 6, 7];
    assert rs[1] !in {5, 7};
    assert LastDestroyed(rs, {5, 7}, 3) == 1;
  }

  /**
   * With the restore loop run in the opposite order to the save loop, every
   * layer is back to its value on entry, whatever the group lists.
   */
  lemma RestoresAllLayers(rs: seq<ObjectId>, alive: set<ObjectId>, bake: int, layers: map<ObjectId, int>, saved: seq<int>)
    requires |saved| == |rs| && Tracked(rs, alive, layers)
    ensures LayersAfter(rs, alive, bake, layers, saved) == layers
  {
    var s := Saved(rs, alive, bake, layers, saved);
    SaveFromSpec(rs, alive, bake, Swap(layers, saved), 0);
    RestoreUpToSpec(rs, alive, s.saved, s.layers, |rs|);
    var m := LayersAfter(rs, alive, bake, layers, saved);
    forall r | r in m
      ensures m[r] == layers[r]
    {
      if r in alive && exists i | 0 <= i < |rs| :: rs[i] == r {
        var l := LastIndex(rs, r, |rs|);
        assert !Listed(rs, r, l + 1);
      }
    }
  }

  /**
   * The save-and-swap loop, in place: visits the indices from last to first
   * and, for each live renderer, saves its layer in `originalLayers` and moves
   * it to `bake`.
   */
  method SaveAndSwap(engine: Engine, rs: seq<ObjectId>, originalLayers: array<int>, bake: int)
    requires engine.Valid() && originalLayers.Length == |rs|
    modifies engine`layer, originalLayers
    ensures engine.Valid()
    ensures Swap(engine.layer, originalLayers[..])
         == Saved(rs, engine.alive, bake, old(engine.layer), old(originalLayers[..]))
  {
    ghost var s0 := Swap(engine.layer, originalLayers[..]);
    var i := |rs|;
    while i > 0
      invariant 0 <= i <= |rs|
      invariant Swap(engine.layer, originalLayers[..]) == SaveFrom(rs, engine.alive, bake, s0, i)
    {
      i := i - 1;
      var r := rs[i];
      if r in engine.alive {
        originalLayers[i] := engine.layer[r];
        engine.layer := engine.layer[r := bake];
      }
    }
  }

  /**
   * The save-and-swap loop as the source writes it, in place: `rs[0]` and the
   * bounds of each renderer it visits are read first, so it throws on an
   * empty group and stops at the first destroyed renderer it meets.
   */
  method SaveAndSwapAsWritten(engine: Engine, rs: seq<ObjectId>, originalLayers: array<int>, bake: int) returns (threw: bool)
    requires engine.Valid() && originalLayers.Length == |rs|
    modifies engine`layer, originalLayers
    ensures engine.Valid()
    ensures threw == SaveThrows(rs, engine.alive)
    ensures Swap(engine.layer, originalLayers[..])
         == SavedAsWritten(rs, engine.alive, bake, old(engine.layer), old(originalLayers[..]))
  {
    if |rs| == 0 || rs[0] !in engine.alive {
      return true;
    }
    ghost var s0 := Swap(engine.layer, originalLayers[..]);
    var i := |rs|;
    while i > 0
      invariant 0 <= i <= |rs|
      invariant forall j | i <= j < |rs| :: rs[j] in engine.alive
      invariant Swap(engine.layer, originalLayers[..]) == SaveFrom(rs, engine.alive, bake, s0, i)
    {
      i := i - 1;
      var r := rs[i];
      if r !in engine.alive {
        return true;
      }
      originalLayers[i] := engine.layer[r];
      engine.layer := engine.layer[r := bake];
    }
    threw := false;
  }

  /** The restore loop as the source writes it: from the last index to the first. */
  method RestoreDescending(engine: Engine, rs: seq<ObjectId>, originalLayers: array<int>)
    requires engine.Valid() && originalLayers.Length == |rs|
    modifies engine`layer
    ensures engine.Valid()
    ensures engine.layer == RestoreFrom(rs, engine.alive, originalLayers[..], old(engine.layer), 0)
  {
    ghost var l0 := engine.layer;
    var i := |rs|;
    while i > 0
      invariant 0 <= i <= |rs|
      invariant engine.layer == RestoreFrom(rs, engine.alive, originalLayers[..], l0, i)
    {
      i := i - 1;
      var r := rs[i];
      if r in engine.alive {
        engine.layer := engine.layer[r := originalLayers[i]];
      }
    }
  }

  /** The restore loop run from the first index to the last, the reverse of the save loop. */
  method RestoreAscending(engine: Engine, rs: seq<ObjectId>, originalLayers: array<int>)
    requires engine.Valid() && originalLayers.Length == |rs|
    modifies engine`layer
    ensures engine.Valid()
    ensures engine.layer == RestoreUpTo(rs, engine.alive, originalLayers[..], old(engine.layer), |rs|)
  {
    ghost var l0 := engine.layer;
    var i := 0;
    while i < |rs|
      invariant 0 <= i <= |rs|
      invariant engine.layer == RestoreUpTo(rs, engine.alive, originalLayers[..], l0, i)
    {
      var r := rs[i];
      if r in engine.alive {
        engine.layer := engine.layer[r := originalLayers[i]];
      }
      i := i + 1;
    }
  }
}

=== FILE: legacy_mesh_canvas.dfy ===
/**
 * The first version of the canvas: a list of providers baked into a
 * world-position texture, and a decal operation that paints through it.
 * Unlike the current canvas it takes the bake layer as a number, has no
 * disposed state, never disposes its providers, binds the temporary buffer
 * rather than the persistent texture to the decal material, and never
 * clears its dirty flag, so every decal re-bakes every provider.
 */
module LegacyCanvas {
  import opened UnityEngine
  import opened LegacyProviders
  import Canvas

  /**
   * The calls that make the persistent texture fit: none when it already
   * fits; otherwise release the texture of the other size, if any, create
   * `now`, and bind `buffer` as the decal material's position texture.
   */
  function Reallocation(was: Option<RenderTexture>, now: TextureId, buffer: TextureId, width: int, height: int): seq<Event> {
    if Fits(was, width, height) then []
    else ReleaseOf(was) + [CreateTexture(now, width, height), BindPositionTexture(buffer)]
  }

  /** The calls a decal issues once the rebuild is done. */
  function DecalCalls(target: TextureId, transform: ObjectId, sprite: Option<TextureId>): seq<Event> {
    [SetDecalTransform(transform, sprite), Blit(None, target, DecalPaint)]
  }

  class MeshCanvas {
    const worldBufferWidth: int
    const worldBufferHeight: int
    const positionBakeLayer: int
    var texelProvider: seq<Provider>
    var positionIsDirty: bool
    var worldTexelTexture: Option<RenderTexture>
    /** The texture the canvas's decal material samples as `_PositionTex`, if one was ever bound. */
    var positionTexture: Option<TextureId>
    ghost var Repr: set<object>

    /** Each provider owns its own objects, inside the canvas's and apart from the others'. */
    ghost predicate ProvidersValid()
      reads this`texelProvider, this`Repr, Repr - {this}
    {
      && (forall i | 0 <= i < |texelProvider| ::
            && texelProvider[i].Obj() in texelProvider[i].Repr()
            && texelProvider[i].WriteFrame() <= texelProvider[i].Repr()
            && texelProvider[i].Repr() <= Repr
            && this !in texelProvider[i].Repr())
      && (forall i, j | 0 <= i < j < |texelProvider| :: texelProvider[i].Repr() !! texelProvider[j].Repr())
      && (forall i | 0 <= i < |texelProvider| :: texelProvider[i].Valid())
    }

    /**
     * `Valid` except for the dirty flag. The persistent texture, when there is
     * one, has the configured size and is never what the decal material
     * samples: the material holds an older texture, the buffer of the rebuild
     * that created it.
     */
    ghost predicate Sound()
      reads this, Repr
    {
      && this in Repr
      && ProvidersValid()
      && (worldTexelTexture.Some? ==> Fits(worldTexelTexture, worldBufferWidth, worldBufferHeight))
      && (worldTexelTexture.Some? ==> positionTexture.Some? && positionTexture.value < worldTexelTexture.value.id)
    }

    /** The canvas is sound and, since nothing ever clears the flag, dirty. */
    ghost predicate Valid()
      reads this, Repr
    {
      Sound() && positionIsDirty
    }

    /** A new canvas is dirty, with no providers, no texture and nothing bound. */
    constructor (worldBufferWidth: int, worldBufferHeight: int, positionBakeLayer: int)
      ensures Valid() && fresh(Repr)
      ensures this.worldBufferWidth == worldBufferWidth && this.worldBufferHeight == worldBufferHeight
      ensures this.positionBakeLayer == positionBakeLayer
      ensures texelProvider == [] && worldTexelTexture == None && positionTexture == None
    {
      this.worldBufferWidth := worldBufferWidth;
      this.worldBufferHeight := worldBufferHeight;
      this.positionBakeLayer := positionBakeLayer;
      texelProvider := [];
      worldTexelTexture := None;
      positionTexture := None;
      Repr := {this};
      new;
      MarkPositionAsDirty();
    }

    method MarkPositionAsDirty()
      requires Sound()
      modifies this`positionIsDirty
      ensures Valid()
    {
      positionIsDirty := true;
    }

    /** Appends a provider whose objects are new to the canvas, and marks the canvas dirty. */
    method Append(p: Provider)
      requires Valid() && p.Valid()
      requires p.Obj() in p.Repr() && p.WriteFrame() <= p.Repr() && p.Repr() !! Repr
      modifies this`texelProvider, this`Repr, this`positionIsDirty
      ensures Valid() && Repr == old(Repr) + p.Repr()
      ensures texelProvider == old(texelProvider) + [p]
    {
      texelProvider := texelProvider + [p];
      Repr := Repr + p.Repr();
      MarkPositionAsDirty();
    }

    /**
     * Adds a group of skinned renderers, however many (none included): one
     * provider for the group on the configured bake layer is appended.
     */
    method AddSkinnedRenderers(engine: Engine, renderers: seq<ObjectId>)
      requires Valid() && engine !in Repr
      modifies this, engine`nextId, engine`trace
      ensures Valid() && fresh(Repr - old(Repr))
      ensures worldTexelTexture == old(worldTexelTexture) && positionTexture == old(positionTexture)
      ensures |texelProvider| == |old(texelProvider)| + 1
      ensures texelProvider[..|old(texelProvider)|] == old(texelProvider)
      ensures texelProvider[|old(texelProvider)|].SkinnedProvider?
      ensures var k := texelProvider[|old(texelProvider)|].k;
        && k.renderers == renderers && k.positionBakeLayer == positionBakeLayer
        && engine.trace == old(engine.trace) + [CreateGameObject(k.cameraObject)]
    {
      var k := new SkinnedMeshTexelTextureProvider(engine, renderers, positionBakeLayer);
      Append(SkinnedProvider(k));
    }

    /**
     * Adds a static mesh renderer. Looking up the filter of a destroyed
     * renderer throws, leaving the canvas as it is; otherwise one provider for
     * the renderer and the filter on its game object is appended, even when
     * there is no filter.
     */
    method AddMeshRenderer(engine: Engine, renderer: ObjectId) returns (threw: bool)
      requires Valid()
      modifies this
      ensures Valid() && fresh(Repr - old(Repr))
      ensures threw == (renderer !in engine.alive)
      ensures threw ==> unchanged(this)
      ensures worldTexelTexture == old(worldTexelTexture) && positionTexture == old(positionTexture)
      ensures !threw ==>
        && |texelProvider| == |old(texelProvider)| + 1
        && texelProvider[..|old(texelProvider)|] == old(texelProvider)
        && texelProvider[|old(texelProvider)|].StaticProvider?
        && texelProvider[|old(texelProvider)|].s.renderer == renderer
        && texelProvider[|old(texelProvider)|].s.filter == engine.GetMeshFilter(renderer)
    {
      if renderer !in engine.alive {
        return true;
      }
      threw := false;
      var s := new StaticMeshTexelTextureProvider(renderer, engine.GetMeshFilter(renderer));
      Append(StaticProvider(s));
    }

    /** Releases the persistent texture, if there is one; a second call does nothing. */
    method ReleaseWorldTexture(engine: Engine)
      modifies this`worldTexelTexture, engine`trace
      ensures worldTexelTexture == None
      ensures engine.trace == old(engine.trace) + ReleaseOf(old(worldTexelTexture))
    {
      if worldTexelTexture.Some? {
        engine.Issue(ReleaseTexture(worldTexelTexture.value.id));
        worldTexelTexture := None;
      }
    }

    /**
     * Rebuilds the position texture, which happens on every call since the
     * canvas is always dirty. A rebuild takes a temporary `buffer`, clears it,
     * and calls every provider on it once, in list order (`writes` holds what
     * those calls issued, `written` how many were made). If one throws, the
     * rebuild stops there: the texture is untouched and the buffer is never
     * released. Otherwise the persistent texture is made to fit (kept when it
     * already does), the buffer is expanded into it and released. A texture
     * created here leaves the decal material bound to the buffer, which is
     * released before the call returns. The canvas stays dirty, and the
     * layers are back to their values on entry only when every provider
     * restores them.
     */
    method UpdateWorldTexture(engine: Engine) returns (threw: bool, ghost buffer: TextureId, ghost written: nat, ghost writes: seq<Event>)
      requires Valid() && engine.Valid() && engine !in Repr
      modifies Repr, engine`layer, engine`trace, engine`nextId
      ensures Valid() && engine.Valid() && Repr == old(Repr)
      ensures texelProvider == old(texelProvider) && positionIsDirty
      ensures (forall i | 0 <= i < |texelProvider| :: texelProvider[i].RestoresLayers(engine.alive)) ==>
        engine.layer == old(engine.layer)
      ensures written <= |texelProvider|
      ensures Calls(writes) == WriteMarkers(texelProvider[..written], buffer)
      ensures threw <==> exists i | 0 <= i < |texelProvider| :: texelProvider[i].ThrowsOnWrite(engine.alive, engine.sharedMesh)
      ensures forall i | 0 <= i < written - 1 :: !texelProvider[i].ThrowsOnWrite(engine.alive, engine.sharedMesh)
      ensures threw ==>
        && 0 < written && texelProvider[written - 1].ThrowsOnWrite(engine.alive, engine.sharedMesh)
        && worldTexelTexture == old(worldTexelTexture) && positionTexture == old(positionTexture)
        && engine.trace == old(engine.trace) + Canvas.Prologue(buffer, worldBufferWidth, worldBufferHeight) + writes
      ensures !threw ==>
        && written == |texelProvider|
        && Fits(worldTexelTexture, worldBufferWidth, worldBufferHeight)
        && (Fits(old(worldTexelTexture), worldBufferWidth, worldBufferHeight) ==>
              worldTexelTexture == old(worldTexelTexture) && positionTexture == old(positionTexture))
        && (!Fits(old(worldTexelTexture), worldBufferWidth, worldBufferHeight) ==>
              positionTexture == Some(buffer) && worldTexelTexture.value.id != buffer)
        && engine.trace == old(engine.trace) + Canvas.Prologue(buffer, worldBufferWidth, worldBufferHeight) + writes
             + Reallocation(old(worldTexelTexture), worldTexelTexture.value.id, buffer, worldBufferWidth, worldBufferHeight)
             + [Blit(Some(buffer), worldTexelTexture.value.id, PositionExpand), ReleaseTemporary(buffer)]
    {
      threw, buffer, written, writes := false, 0, 0, [];
      if positionIsDirty {
        var worldBuffer := engine.GetTemporaryTexture(worldBufferWidth, worldBufferHeight);
        buffer := worldBuffer;
        engine.IssueAll([SetActiveTarget(worldBuffer), ClearTarget(Transparent)]);
        ghost var begun := engine.trace;
        assert begun == old(engine.trace) + Canvas.Prologue(buffer, worldBufferWidth, worldBufferHeight);
        threw, written, writes := WriteAndExpand(engine, worldBuffer);
      }
    }

    /**
     * A rebuild once its `buffer` is cleared: every provider is written into
     * it, in list order, until one throws; if none does, the persistent
     * texture is made to fit and `buffer` is expanded into it and released.
     */
    method WriteAndExpand(engine: Engine, buffer: TextureId) returns (threw: bool, ghost written: nat, ghost writes: seq<Event>)
      requires Valid() && engine.Valid() && engine !in Repr && buffer < engine.nextId
      modifies Repr, engine`layer, engine`trace, engine`nextId
      ensures Valid() && engine.Valid() && Repr == old(Repr)
      ensures texelProvider == old(texelProvider)
      ensures (forall i | 0 <= i < |texelProvider| :: texelProvider[i].RestoresLayers(engine.alive)) ==>
        engine.layer == old(engine.layer)
      ensures written <= |texelProvider|
      ensures Calls(writes) == WriteMarkers(texelProvider[..written], buffer)
      ensures threw <==> exists i | 0 <= i < |texelProvider| :: texelProvider[i].ThrowsOnWrite(engine.alive, engine.sharedMesh)
      ensures forall i | 0 <= i < written - 1 :: !texelProvider[i].ThrowsOnWrite(engine.alive, engine.sharedMesh)
      ensures threw ==>
        && 0 < written && texelProvider[written - 1].ThrowsOnWrite(engine.alive, engine.sharedMesh)
        && worldTexelTexture == old(worldTexelTexture) && positionTexture == old(positionTexture)
        && engine.trace == old(engine.trace) + writes
      ensures !threw ==>
        && written == |texelProvider|
        && Fits(worldTexelTexture, worldBufferWidth, worldBufferHeight)
        && (Fits(old(worldTexelTexture), worldBufferWidth, worldBufferHeight) ==>
              worldTexelTexture == old(worldTexelTexture) && positionTexture == old(positionTexture))
        && (!Fits(old(worldTexelTexture), worldBufferWidth, worldBufferHeight) ==>
              positionTexture == Some(buffer) && worldTexelTexture.value.id != buffer)
        && engine.trace == old(engine.trace) + writes
             + Reallocation(old(worldTexelTexture), worldTexelTexture.value.id, buffer, worldBufferWidth, worldBufferHeight)
             + [Blit(Some(buffer), worldTexelTexture.value.id, PositionExpand), ReleaseTemporary(buffer)]
    {
      threw, written, writes := WriteProviders(engine, buffer);
      if threw {
        return;
      }
      assert texelProvider[..written] == texelProvider;
      ExpandInto(engine, buffer);
    }

    /**
     * The end of a rebuild that did not throw: makes the persistent texture
     * fit, expands `buffer` into it and releases `buffer`.
     */
    method ExpandInto(engine: Engine, buffer: TextureId)
      requires Valid() && engine !in Repr && buffer < engine.nextId
      modifies this`worldTexelTexture, this`positionTexture, engine`nextId, engine`trace
      ensures Valid()
      ensures Fits(worldTexelTexture, worldBufferWidth, worldBufferHeight)
      ensures Fits(old(worldTexelTexture), worldBufferWidth, worldBufferHeight) ==>
        worldTexelTexture == old(worldTexelTexture) && positionTexture == old(positionTexture)
      ensures !Fits(old(worldTexelTexture), worldBufferWidth, worldBufferHeight) ==>
        positionTexture == Some(buffer) && worldTexelTexture.value.id != buffer
      ensures engine.trace == old(engine.trace)
        + Reallocation(old(worldTexelTexture), worldTexelTexture.value.id, buffer, worldBufferWidth, worldBufferHeight)
        + [Blit(Some(buffer), worldTexelTexture.value.id, PositionExpand), ReleaseTemporary(buffer)]
    {
      FitWorldTexture(engine, buffer);
      engine.IssueAll([Blit(Some(buffer), worldTexelTexture.value.id, PositionExpand), ReleaseTemporary(buffer)]);
    }

    /**
     * Makes the persistent texture fit the configured size: a texture of
     * another size is released, and when there is none a texture is created
     * and `buffer` is bound to the decal material. A texture that already fits
     * is kept.
     */
    method FitWorldTexture(engine: Engine, buffer: TextureId)
      requires this in Repr && ProvidersValid() && engine !in Repr && buffer < engine.nextId
      modifies this`worldTexelTexture, this`positionTexture, engine`nextId, engine`trace
      ensures ProvidersValid()
      ensures Fits(worldTexelTexture, worldBufferWidth, worldBufferHeight)
      ensures Fits(old(worldTexelTexture), worldBufferWidth, worldBufferHeight) ==>
        worldTexelTexture == old(worldTexelTexture) && positionTexture == old(positionTexture)
      ensures !Fits(old(worldTexelTexture), worldBufferWidth, worldBufferHeight) ==>
        worldTexelTexture.value.id == old(engine.nextId) && positionTexture == Some(buffer)
      ensures engine.trace == old(engine.trace)
        + Reallocation(old(worldTexelTexture), worldTexelTexture.value.id, buffer, worldBufferWidth, worldBufferHeight)
    {
      if worldTexelTexture.Some?
        && (worldTexelTexture.value.width != worldBufferWidth || worldTexelTexture.value.height != worldBufferHeight)
      {
        ReleaseWorldTexture(engine);
      }
      if worldTexelTexture.None? {
        var id := engine.CreateRenderTexture(worldBufferWidth, worldBufferHeight);
        worldTexelTexture := Some(RenderTexture(id, worldBufferWidth, worldBufferHeight));
        positionTexture := Some(buffer);
        engine.Issue(BindPositionTexture(buffer));
      }
    }

    /**
     * The loop of a rebuild: calls every provider on `buffer` once, in list
     * order, and stops after the first one that throws.
     */
    method WriteProviders(engine: Engine, buffer: TextureId) returns (threw: bool, ghost written: nat, ghost writes: seq<Event>)
      requires Valid() && engine.Valid() && engine !in Repr
      modifies Repr - {this}, engine`layer, engine`trace
      ensures Valid() && engine.Valid()
      ensures (forall i | 0 <= i < |texelProvider| :: texelProvider[i].RestoresLayers(engine.alive)) ==>
        engine.layer == old(engine.layer)
      ensures engine.trace == old(engine.trace) + writes
      ensures written <= |texelProvider|
      ensures Calls(writes) == WriteMarkers(texelProvider[..written], buffer)
      ensures forall j | 0 <= j < written - 1 :: !texelProvider[j].ThrowsOnWrite(engine.alive, engine.sharedMesh)
      ensures threw ==> 0 < written && texelProvider[written - 1].ThrowsOnWrite(engine.alive, engine.sharedMesh)
      ensures !threw ==> written == |texelProvider|
      ensures threw <==> exists i | 0 <= i < |texelProvider| :: texelProvider[i].ThrowsOnWrite(engine.alive, engine.sharedMesh)
    {
      threw, written, writes := false, 0, [];
      var i := 0;
      while i < |texelProvider|
        invariant 0 <= i <= |texelProvider| && written == i
        invariant Valid() && engine.Valid()
        invariant (forall j | 0 <= j < i :: texelProvider[j].RestoresLayers(engine.alive)) ==>
          engine.layer == old(engine.layer)
        invariant engine.trace == old(engine.trace) + writes
        invariant Calls(writes) == WriteMarkers(texelProvider[..i], buffer)
        invariant forall j | 0 <= j < i :: !texelProvider[j].ThrowsOnWrite(engine.alive, engine.sharedMesh)
      {
        var t;
        ghost var issued;
        t, issued := WriteOne(engine, i, buffer);
        WriteMarkersStep(writes, texelProvider, i, buffer, issued);
        writes := writes + [WriteCalled(texelProvider[i].Obj(), buffer)] + issued;
        i := i + 1;
        written := i;
        if t {
          threw := true;
          return;
        }
      }
    }

    /** One step of the rebuild loop: calls provider `i` on `buffer`. */
    method WriteOne(engine: Engine, i: nat, buffer: TextureId) returns (threw: bool, ghost issued: seq<Event>)
      requires Valid() && engine.Valid() && engine !in Repr && i < |texelProvider|
      modifies Repr - {this}, engine`layer, engine`trace
      ensures Valid() && engine.Valid()
      ensures texelProvider[i].RestoresLayers(engine.alive) ==> engine.layer == old(engine.layer)
      ensures threw == texelProvider[i].ThrowsOnWrite(engine.alive, engine.sharedMesh)
      ensures engine.trace == old(engine.trace) + [WriteCalled(texelProvider[i].Obj(), buffer)] + issued
      ensures Calls(issued) == []
    {
      threw, issued := Write(texelProvider[i], engine, buffer);
    }

    /** Marks the canvas dirty and rebuilds: the same as `UpdateWorldTexture`, since the canvas is always dirty. */
    method UpdatePositionTexture(engine: Engine) returns (threw: bool, ghost buffer: TextureId, ghost writes: seq<Event>)
      requires Valid() && engine.Valid() && engine !in Repr
      modifies Repr, engine`layer, engine`trace, engine`nextId
      ensures Valid() && engine.Valid() && Repr == old(Repr)
      ensures texelProvider == old(texelProvider)
      ensures (forall i | 0 <= i < |texelProvider| :: texelProvider[i].RestoresLayers(engine.alive)) ==>
        engine.layer == old(engine.layer)
      ensures old(worldTexelTexture).Some? ==> worldTexelTexture == old(worldTexelTexture)
      ensures threw <==> exists i | 0 <= i < |texelProvider| :: texelProvider[i].ThrowsOnWrite(engine.alive, engine.sharedMesh)
      ensures threw ==>
        && worldTexelTexture == old(worldTexelTexture) && positionTexture == old(positionTexture)
        && engine.trace == old(engine.trace) + Canvas.Prologue(buffer, worldBufferWidth, worldBufferHeight) + writes
      ensures !threw ==>
        && Calls(writes) == WriteMarkers(texelProvider, buffer)
        && Fits(worldTexelTexture, worldBufferWidth, worldBufferHeight)
        && engine.trace == old(engine.trace) + Canvas.Prologue(buffer, worldBufferWidth, worldBufferHeight) + writes
             + Reallocation(old(worldTexelTexture), worldTexelTexture.value.id, buffer, worldBufferWidth, worldBufferHeight)
             + [Blit(Some(buffer), worldTexelTexture.value.id, PositionExpand), ReleaseTemporary(buffer)]
    {
      MarkPositionAsDirty();
      ghost var written;
      threw, buffer, written, writes := UpdateWorldTexture(engine);
      if !threw {
        assert texelProvider[..written] == texelProvider;
      }
    }

    /**
     * Paints `sprite` into `texture` through the decal placed by `transform`.
     * Every call first rebuilds the position texture, calling every provider
     * once, in list order. Unless a provider throws, the rebuild completes;
     * then reading the matrix of a destroyed `transform` throws, and otherwise
     * the decal transform and sprite are set and one blit into `texture` runs.
     */
    method DrawDecal(engine: Engine, texture: TextureId, transform: ObjectId, sprite: Option<TextureId>)
      returns (threw: bool, ghost buffer: TextureId, ghost writes: seq<Event>)
      requires Valid() && engine.Valid() && engine !in Repr
      modifies Repr, engine`layer, engine`trace, engine`nextId
      ensures Valid() && engine.Valid() && Repr == old(Repr)
      ensures texelProvider == old(texelProvider)
      ensures (forall i | 0 <= i < |texelProvider| :: texelProvider[i].RestoresLayers(engine.alive)) ==>
        engine.layer == old(engine.layer)
      ensures old(worldTexelTexture).Some? ==> worldTexelTexture == old(worldTexelTexture)
      ensures threw <==>
        (exists i | 0 <= i < |texelProvider| :: texelProvider[i].ThrowsOnWrite(engine.alive, engine.sharedMesh))
        || transform !in engine.alive
      ensures (exists i | 0 <= i < |texelProvider| :: texelProvider[i].ThrowsOnWrite(engine.alive, engine.sharedMesh)) ==>
        && worldTexelTexture == old(worldTexelTexture) && positionTexture == old(positionTexture)
        && engine.trace == old(engine.trace) + Canvas.Prologue(buffer, worldBufferWidth, worldBufferHeight) + writes
      ensures (forall i | 0 <= i < |texelProvider| :: !texelProvider[i].ThrowsOnWrite(engine.alive, engine.sharedMesh)) ==>
        && Calls(writes) == WriteMarkers(texelProvider, buffer)
        && Fits(worldTexelTexture, worldBufferWidth, worldBufferHeight)
        && engine.trace == old(engine.trace) + Canvas.Prologue(buffer, worldBufferWidth, worldBufferHeight) + writes
             + Reallocation(old(worldTexelTexture), worldTexelTexture.value.id, buffer, worldBufferWidth, worldBufferHeight)
             + [Blit(Some(buffer), worldTexelTexture.value.id, PositionExpand), ReleaseTemporary(buffer)]
             + (if transform in engine.alive then DecalCalls(texture, transform, sprite) else [])
    {
      ghost var written;
      threw, buffer, written, writes := UpdateWorldTexture(engine);
      if threw {
        return;
      }
      assert texelProvider[..written] == texelProvider;
      if transform !in engine.alive {
        threw := true;
        return;
      }
      engine.IssueAll(DecalCalls(texture, transform, sprite));
    }

    /**
     * Releases the persistent texture; the providers are neither disposed nor
     * removed. A second call issues nothing.
     */
    method Dispose(engine: Engine)
      requires Valid()
      modifies this`worldTexelTexture, engine`trace
      ensures Valid() && worldTexelTexture == None
      ensures engine.trace == old(engine.trace) + ReleaseOf(old(worldTexelTexture))
    {
      ReleaseWorldTexture(engine);
    }
  }
}

=== FILE: legacy_providers.dfy ===
/**
 * The texel providers of the first version of the canvas. They do what the
 * extractors do, with three differences: a static provider keeps a filter
 * that may be missing, a skinned provider leaves its camera pointed at the
 * buffer after a write, and its restore loop runs from the last renderer to
 * the first like its save loop. Like the current extractor's, its save loop
 * reads a renderer's bounds before testing it for liveness, so a destroyed
 * renderer throws there instead of being skipped.
 */
module LegacyProviders {
  import opened UnityEngine
  import opened LayerSwap

  /** No live renderer is listed twice in the group. */
  predicate NoLiveDuplicates(rs: seq<ObjectId>, alive: set<ObjectId>) {
    forall i, j | 0 <= i < j < |rs| && rs[i] in alive :: rs[i] != rs[j]
  }

  class StaticMeshTexelTextureProvider {
    const renderer: ObjectId
    /** The filter found on the renderer's game object; `None` when there was none. */
    const filter: Option<ObjectId>

    constructor (renderer: ObjectId, filter: Option<ObjectId>)
      ensures this.renderer == renderer && this.filter == filter
    {
      this.renderer := renderer;
      this.filter := filter;
    }

    /** Drawing a missing mesh throws: a write throws exactly when the renderer and the filter are live and the filter has no mesh. */
    predicate ThrowsOnWrite(alive: set<ObjectId>, meshes: map<ObjectId, MeshId>) {
      renderer in alive && filter.Some? && filter.value in alive && filter.value !in meshes
    }

    /**
     * Issues exactly one draw of the filter's mesh with the renderer's current
     * local-to-world matrix when both are live and the filter has a mesh;
     * throws, issuing nothing, when the mesh is missing; and issues nothing
     * otherwise.
     */
    method WriteWorldTexelTexture(engine: Engine, texture: TextureId) returns (threw: bool)
      requires engine.Valid()
      modifies engine`trace
      ensures threw == ThrowsOnWrite(engine.alive, engine.sharedMesh)
      ensures engine.IsAlive(Some(renderer)) && engine.IsAlive(filter) && !threw ==>
        engine.trace == old(engine.trace)
          + [DrawMeshNow(PositionBake, engine.sharedMesh[filter.value], engine.localToWorld[renderer])]
      ensures !(engine.IsAlive(Some(renderer)) && engine.IsAlive(filter)) || threw ==> engine.trace == old(engine.trace)
    {
      if engine.IsAlive(Some(renderer)) && engine.IsAlive(filter) {
        var mesh := engine.SharedMesh(filter.value);
        if mesh.None? {
          return true;
        }
        engine.Issue(DrawMeshNow(PositionBake, mesh.value, engine.localToWorld[renderer]));
      }
      threw := false;
    }
  }

  class SkinnedMeshTexelTextureProvider {
    const renderers: seq<ObjectId>
    const originalLayers: array<int>
    const positionBakeLayer: int
    const cameraObject: ObjectId
    const renderCamera: Camera
    ghost const Repr: set<object>

    ghost predicate Valid()
      reads renderCamera
    {
      && Repr == {this, originalLayers, renderCamera} && originalLayers.Length == |renderers|
      && CameraSetUp()
    }

    /**
     * The camera set-up the constructor makes and nothing undoes: disabled,
     * clearing nothing, without occlusion culling, culling spherically and
     * seeing only the bake layer.
     */
    ghost predicate CameraSetUp()
      reads renderCamera
    {
      && !renderCamera.enabled && renderCamera.clearFlags == Nothing
      && !renderCamera.useOcclusionCulling && renderCamera.layerCullSpherical
      && renderCamera.cullingMask == LayerBit(positionBakeLayer)
    }

    /**
     * Keeps the group, sizes `originalLayers` to it, and creates a game object
     * with a disabled camera that clears nothing, does no occlusion culling and
     * sees only the bake layer.
     */
    constructor (engine: Engine, renderers: seq<ObjectId>, positionBakeLayer: int)
      modifies engine`nextId, engine`trace
      ensures Valid() && fresh(Repr)
      ensures this.renderers == renderers && this.positionBakeLayer == positionBakeLayer
      ensures engine.trace == old(engine.trace) + [CreateGameObject(cameraObject)]
      ensures !renderCamera.enabled && renderCamera.clearFlags == Nothing
      ensures !renderCamera.useOcclusionCulling && renderCamera.layerCullSpherical
      ensures renderCamera.cullingMask == LayerBit(positionBakeLayer) && renderCamera.targetTexture == None
    {
      this.renderers := renderers;
      this.positionBakeLayer := positionBakeLayer;
      originalLayers := new int[|renderers|];
      var obj := engine.CreateObject();
      cameraObject := obj;
      var cam := new Camera();
      cam.enabled := false;
      cam.clearFlags := Nothing;
      cam.useOcclusionCulling := false;
      cam.layerCullSpherical := true;
      cam.cullingMask := LayerBit(positionBakeLayer);
      renderCamera := cam;
      Repr := {this, originalLayers, cam};
    }

    /**
     * Bakes the group into `texture`. The save loop reads `renderers[0]` and
     * the bounds of every renderer it visits before testing it for liveness,
     * so an empty group or a destroyed renderer throws before the render,
     * leaving the renderers already moved on the bake layer. Otherwise every
     * renderer is on the bake layer when the render runs, with its previous
     * layer saved at its index, the camera is left pointed at `texture`, and
     * the layers end as the descending restore leaves them: back to their
     * values on entry when no renderer is listed twice.
     */
    method WriteWorldTexelTexture(engine: Engine, texture: TextureId) returns (threw: bool)
      requires Valid() && engine.Valid()
      modifies engine`layer, engine`trace, originalLayers, renderCamera`targetTexture
      ensures Valid() && engine.Valid()
      ensures threw == SaveThrows(renderers, engine.alive)
      ensures threw ==>
        && engine.trace == old(engine.trace) && unchanged(renderCamera)
        && Swap(engine.layer, originalLayers[..])
           == SavedAsWritten(renderers, engine.alive, positionBakeLayer, old(engine.layer), old(originalLayers[..]))
      ensures !threw ==>
        var s := Saved(renderers, engine.alive, positionBakeLayer, old(engine.layer), old(originalLayers[..]));
        && originalLayers[..] == s.saved
        && engine.trace == old(engine.trace) + [RenderWithShader(Some(texture), LayerBit(positionBakeLayer), engine.alive, s.layers)]
        && (forall i | 0 <= i < |renderers| && renderers[i] in engine.alive :: s.layers[renderers[i]] == positionBakeLayer)
        && engine.layer == LayersAfterAsWritten(renderers, engine.alive, positionBakeLayer, old(engine.layer), old(originalLayers[..]))
        && renderCamera.targetTexture == Some(texture)
      ensures !HasDestroyed(renderers, engine.alive) && NoLiveDuplicates(renderers, engine.alive) ==>
        engine.layer == old(engine.layer)
    {
      threw := SaveAndSwapAsWritten(engine, renderers, originalLayers, positionBakeLayer);
      if threw {
        return;
      }
      SwapMovesGroupToBakeLayer(renderers, engine.alive, positionBakeLayer, old(engine.layer), old(originalLayers[..]));
      renderCamera.targetTexture := Some(texture);
      engine.Render(renderCamera);
      RestoreDescending(engine, renderers, originalLayers);
      if NoLiveDuplicates(renderers, engine.alive) {
        AsWrittenRestoresDistinct(renderers, engine.alive, positionBakeLayer, old(engine.layer), old(originalLayers[..]));
      }
    }

    /** Destroys the camera's game object; the group and the camera reference are kept. */
    method Dispose(engine: Engine)
      modifies engine`trace
      ensures engine.trace == old(engine.trace) + [DestroyObject(Some(cameraObject))]
    {
      engine.Issue(DestroyObject(Some(cameraObject)));
    }
  }

  /** `IWorldTexelTextureProvider` as a tagged variant, one case per implementation. */
  datatype Provider = StaticProvider(s: StaticMeshTexelTextureProvider) | SkinnedProvider(k: SkinnedMeshTexelTextureProvider)
  {
    /** The provider object itself. */
    ghost function Obj(): object {
      match this
      case StaticProvider(s) => s
      case SkinnedProvider(k) => k
    }

    /** The objects the provider owns. */
    ghost function Repr(): set<object> {
      match this
      case StaticProvider(s) => {s}
      case SkinnedProvider(k) => k.Repr
    }

    /** The objects a write changes. */
    ghost function WriteFrame(): set<object> {
      match this
      case StaticProvider(s) => {}
      case SkinnedProvider(k) => {k.originalLayers, k.renderCamera}
    }

    ghost predicate Valid()
      reads WriteFrame()
    {
      SkinnedProvider? ==> k.Valid()
    }

    /**
     * A write throws exactly when the provider is a static one whose live
     * filter has no mesh, or a skinned one over an empty group or a group
     * with a destroyed renderer.
     */
    predicate ThrowsOnWrite(alive: set<ObjectId>, meshes: map<ObjectId, MeshId>) {
      match this
      case StaticProvider(s) => s.ThrowsOnWrite(alive, meshes)
      case SkinnedProvider(k) => SaveThrows(k.renderers, alive)
    }

    /**
     * A write leaves every layer as it found it: always for a static
     * provider, and for a skinned one whose group has no destroyed renderer
     * and lists no renderer twice.
     */
    predicate RestoresLayers(alive: set<ObjectId>) {
      SkinnedProvider? ==> !HasDestroyed(k.renderers, alive) && NoLiveDuplicates(k.renderers, alive)
    }
  }

  /** The interface calls that writing each provider of `ps` into `buffer`, in order, records. */
  ghost function WriteMarkers(ps: seq<Provider>, buffer: TextureId): (m: seq<Event>)
    ensures |m| == |ps|
  {
    seq(|ps|, i requires 0 <= i < |ps| => WriteCalled(ps[i].Obj(), buffer))
  }

  /**
   * `WriteWorldTexelTexture` through the interface: records the call, then
   * issues the provider's own engine calls. The layers are back to their
   * values on entry when the provider restores them.
   */
  method Write(p: Provider, engine: Engine, buffer: TextureId) returns (threw: bool, ghost issued: seq<Event>)
    requires p.Valid() && engine.Valid()
    modifies p.WriteFrame(), engine`layer, engine`trace
    ensures p.Valid() && engine.Valid()
    ensures threw == p.ThrowsOnWrite(engine.alive, engine.sharedMesh)
    ensures p.RestoresLayers(engine.alive) ==> engine.layer == old(engine.layer)
    ensures engine.trace == old(engine.trace) + [WriteCalled(p.Obj(), buffer)] + issued
    ensures Calls(issued) == []
  {
    engine.trace := engine.trace + [WriteCalled(p.Obj(), buffer)];
    ghost var before := engine.trace;
    match p {
      case StaticProvider(s) =>
        threw := s.WriteWorldTexelTexture(engine, buffer);
      case SkinnedProvider(k) =>
        threw := k.WriteWorldTexelTexture(engine, buffer);
    }
    issued := engine.trace[|before|..];
    assert engine.trace == before + issued;
    assert |issued| <= 1;
  }

  /** Writing one more provider extends the recorded interface calls by its marker. */
  lemma WriteMarkersStep(before: seq<Event>, ps: seq<Provider>, i: nat, buffer: TextureId, issued: seq<Event>)
    requires i < |ps| && Calls(before) == WriteMarkers(ps[..i], buffer) && Calls(issued) == []
    ensures Calls(before + [WriteCalled(ps[i].Obj(), buffer)] + issued) == WriteMarkers(ps[..i + 1], buffer)
  {
    var m := WriteCalled(ps[i].Obj(), buffer);
    assert [m][..0] == [];
    CallsAppend(before, [m]);
    CallsAppend(before + [m], issued);
    assert WriteMarkers(ps[..i + 1], buffer) == WriteMarkers(ps[..i], buffer) + [m];
  }
}

=== FILE: mesh_canvas.dfy ===
/**
 * The canvas: a list of extractors that together produce a world-position
 * texture for a set of meshes, rebuilt lazily before each paint, and a paint
 * operation that blits a decal into a target texture using that texture.
 */
module Canvas {
  import opened UnityEngine
  import opened Brush
  import opened StaticExtractor
  import opened SkinnedExtractor
  import opened TexelExtractor

  /** The layer name used for skinned baking when the caller gives none. */
  const DefaultBakeLayerName := "MeshCanvas Bake"

  /** The calls that open a rebuild: take a temporary buffer, make it the target, clear it. */
  function Prologue(buffer: TextureId, width: int, height: int): seq<Event> {
    [GetTemporary(buffer, width, height), SetActiveTarget(buffer), ClearTarget(Transparent)]
  }

  /**
   * The calls that make the persistent texture fit: none when it already
   * fits; otherwise release the texture of the other size, if any, create
   * `now` and bind it as the decal shader's position texture.
   */
  function Reallocation(was: Option<RenderTexture>, now: TextureId, width: int, height: int): seq<Event> {
    if Fits(was, width, height) then []
    else ReleaseOf(was) + [CreateTexture(now, width, height), BindPositionTexture(now)]
  }

  /** The calls a paint issues once the position texture is current. */
  function DecalCalls(target: TextureId, brush: BrushParams, decal: DecalParameters): seq<Event> {
    [SetDecal(decal), Blit(brush.texture, target, DecalPaint)]
  }

  class MeshCanvas {
    const worldBufferWidth: int
    const worldBufferHeight: int
    const positionBakeLayerName: string
    /** The lazily resolved bake layer: `None` until a skinned group is first added. */
    var positionBakeLayer: Option<int>
    var texelProvider: seq<Extractor>
    var positionIsDirty: bool
    var isDisposed: bool
    var worldTexelTexture: Option<RenderTexture>
    /** The texture the canvas's decal material samples as `_PositionTex`, if one was ever bound. */
    var positionTexture: Option<TextureId>
    ghost var Repr: set<object>

    /** Each extractor owns its own objects, inside the canvas's and apart from the others'. */
    ghost predicate Owned()
      reads this`texelProvider, this`Repr
    {
      && (forall i | 0 <= i < |texelProvider| ::
            && texelProvider[i].Obj() in texelProvider[i].Repr()
            && texelProvider[i].WriteFrame() <= texelProvider[i].Repr()
            && texelProvider[i].Repr() <= Repr
            && this !in texelProvider[i].Repr())
      && (forall i, j | 0 <= i < j < |texelProvider| :: texelProvider[i].Repr() !! texelProvider[j].Repr())
    }

    /** Every extractor is valid. */
    ghost predicate ProvidersValid()
      reads this`texelProvider, this`Repr, Repr - {this}
    {
      && Owned()
      && (forall i | 0 <= i < |texelProvider| :: texelProvider[i].Valid())
    }

    /** No extractor has been disposed. */
    ghost predicate ProvidersLive()
      reads this`texelProvider, this`Repr, Repr - {this}
    {
      && Owned()
      && (forall i | 0 <= i < |texelProvider| :: !texelProvider[i].IsDisposed())
    }

    /**
     * The extractors are valid and live; a disposed canvas holds neither
     * extractors nor a texture; and a clean live canvas has a position texture
     * of the configured size, so a paint never samples a missing texture.
     */
    ghost predicate Valid()
      reads this, Repr
    {
      && Sound()
      && (!isDisposed && !positionIsDirty ==> Fits(worldTexelTexture, worldBufferWidth, worldBufferHeight))
    }

    /**
     * `Valid` except for what a clean canvas promises. Whenever the canvas
     * holds a persistent texture, it has the configured size and the decal
     * material samples it.
     */
    ghost predicate Sound()
      reads this, Repr
    {
      && this in Repr
      && ProvidersValid()
      && ProvidersLive()
      && (isDisposed ==> texelProvider == [] && worldTexelTexture == None)
      && (worldTexelTexture.Some? ==> Fits(worldTexelTexture, worldBufferWidth, worldBufferHeight))
      && (worldTexelTexture.Some? ==> positionTexture == Some(worldTexelTexture.value.id))
    }

    /** A new canvas is dirty and live, with no extractors, no texture and the bake layer not yet resolved. */
    constructor (worldBufferWidth: int, worldBufferHeight: int, positionBakeLayerName: string := DefaultBakeLayerName)
      ensures Valid() && fresh(Repr)
      ensures this.worldBufferWidth == worldBufferWidth && this.worldBufferHeight == worldBufferHeight
      ensures this.positionBakeLayerName == positionBakeLayerName && positionBakeLayer == None
      ensures positionIsDirty && !isDisposed && texelProvider == [] && worldTexelTexture == None
      ensures positionTexture == None
    {
      this.worldBufferWidth := worldBufferWidth;
      this.worldBufferHeight := worldBufferHeight;
      this.positionBakeLayerName := positionBakeLayerName;
      positionBakeLayer := None;
      texelProvider := [];
      isDisposed := false;
      worldTexelTexture := None;
      positionTexture := None;
      Repr := {this};
      new;
      MarkPositionAsDirty();
    }

    method MarkPositionAsDirty()
      requires Sound()
      modifies this`positionIsDirty
      ensures Valid() && positionIsDirty
    {
      positionIsDirty := true;
    }

    /**
     * Adds a static mesh renderer. A disposed canvas is left as it is. Looking
     * up the filter of a destroyed renderer throws, and a renderer without a
     * live mesh filter is refused; both leave the canvas as it is. Otherwise
     * exactly one extractor for the renderer and its filter is appended and
     * the canvas becomes dirty.
     */
    method AddMeshRenderer(engine: Engine, renderer: ObjectId) returns (threw: bool)
      requires Valid()
      modifies this
      ensures Valid() && fresh(Repr - old(Repr))
      ensures threw == (!old(isDisposed) && renderer !in engine.alive)
      ensures old(isDisposed) || threw || !engine.IsAlive(engine.GetMeshFilter(renderer)) ==> unchanged(this)
      ensures !old(isDisposed) && !threw && engine.IsAlive(engine.GetMeshFilter(renderer)) ==>
        && |texelProvider| == |old(texelProvider)| + 1
        && texelProvider[..|old(texelProvider)|] == old(texelProvider)
        && texelProvider[|old(texelProvider)|].Static?
        && texelProvider[|old(texelProvider)|].s.renderer == Some(renderer)
        && texelProvider[|old(texelProvider)|].s.filter == engine.GetMeshFilter(renderer)
        && positionIsDirty
        && isDisposed == old(isDisposed) && worldTexelTexture == old(worldTexelTexture)
        && positionTexture == old(positionTexture) && positionBakeLayer == old(positionBakeLayer)
    {
      if isDisposed {
        return false;
      }
      if renderer !in engine.alive {
        return true;
      }
      threw := false;
      var filter := engine.GetMeshFilter(renderer);
      if engine.IsAlive(filter) {
        var s := new StaticMeshTexelExtractor(renderer, filter.value);
        Append(Static(s));
      }
    }

    /** Appends a live extractor whose objects are new to the canvas, and marks the canvas dirty. */
    method Append(e: Extractor)
      requires Valid() && !isDisposed
      requires e.Obj() in e.Repr() && e.WriteFrame() <= e.Repr() && e.Repr() !! Repr
      requires e.Valid() && !e.IsDisposed()
      modifies this`texelProvider, this`Repr, this`positionIsDirty
      ensures Valid() && Repr == old(Repr) + e.Repr()
      ensures texelProvider == old(texelProvider) + [e] && positionIsDirty
    {
      texelProvider := texelProvider + [e];
      Repr := Repr + e.Repr();
      assert Owned();
      MarkPositionAsDirty();
    }

    /**
     * Adds a group of skinned renderers. A disposed canvas is left as it is.
     * Otherwise the bake layer is looked up by name the first time only, and
     * one extractor for the group on that layer is appended, making the canvas
     * dirty, exactly when the layer is defined.
     */
    method AddSkinnedRenderers(engine: Engine, renderers: seq<ObjectId>)
      requires Valid() && engine !in Repr
      modifies this, engine`nextId, engine`trace
      ensures Valid() && fresh(Repr - old(Repr))
      ensures old(isDisposed) ==> unchanged(this) && engine.trace == old(engine.trace)
      ensures !old(isDisposed) ==>
        var id := if old(positionBakeLayer).Some? then old(positionBakeLayer).value
                  else engine.LayerIndex(positionBakeLayerName);
        var lookup := if old(positionBakeLayer).Some? then [] else [NameToLayer(positionBakeLayerName, id)];
        && positionBakeLayer == Some(id)
        && isDisposed == old(isDisposed) && worldTexelTexture == old(worldTexelTexture)
        && positionTexture == old(positionTexture)
        && (id < 0 ==>
              && texelProvider == old(texelProvider) && positionIsDirty == old(positionIsDirty)
              && engine.trace == old(engine.trace) + lookup)
        && (id >= 0 ==>
              && |texelProvider| == |old(texelProvider)| + 1
              && texelProvider[..|old(texelProvider)|] == old(texelProvider)
              && texelProvider[|old(texelProvider)|].Skinned?
              && var k := texelProvider[|old(texelProvider)|].k;
              && k.renderers == Some(renderers) && k.positionBakeLayer == id
              && k.cameraObject.Some?
              && engine.trace == old(engine.trace) + lookup + [CreateGameObject(k.cameraObject.value)]
              && positionIsDirty)
    {
      if isDisposed {
        return;
      }
      var id;
      if positionBakeLayer.Some? {
        id := positionBakeLayer.value;
      } else {
        id := engine.LayerFromName(positionBakeLayerName);
        positionBakeLayer := Some(id);
      }
      if id >= 0 {
        var k := new SkinnedMeshTexelExtractor(engine, renderers, id);
        Append(Skinned(k));
      }
    }

    /** Releases the persistent texture, if there is one; a second call does nothing. */
    method ReleaseWorldTexture(engine: Engine)
      modifies this`worldTexelTexture, engine`trace
      ensures worldTexelTexture == None
      ensures engine.trace == old(engine.trace) + ReleaseOf(old(worldTexelTexture))
    {
      if worldTexelTexture.Some? {
        engine.Issue(ReleaseTexture(worldTexelTexture.value.id));
        worldTexelTexture := None;
      }
    }

    /**
     * Rebuilds the position texture when the canvas is dirty and live, and
     * does nothing otherwise. A rebuild takes a temporary `buffer`, clears it,
     * and calls every extractor on it once, in list order (`writes` holds what
     * those calls issued, `written` how many were made). If one throws, the
     * rebuild stops there: the canvas stays dirty, the texture is untouched and
     * the buffer is never released. Otherwise the persistent texture is made to
     * fit (kept when it already does), the buffer is expanded into it and
     * released, and the canvas is clean.
     */
    method UpdatePositionIfDirty(engine: Engine) returns (threw: bool, ghost buffer: TextureId, ghost written: nat, ghost writes: seq<Event>)
      requires Valid() && engine.Valid() && engine !in Repr
      modifies Repr, engine`layer, engine`trace, engine`nextId
      ensures Valid() && engine.Valid() && Repr == old(Repr)
      ensures texelProvider == old(texelProvider) && isDisposed == old(isDisposed)
      ensures positionBakeLayer == old(positionBakeLayer)
      ensures engine.layer == old(engine.layer)
      ensures !old(positionIsDirty && !isDisposed) ==>
        !threw && unchanged(this) && engine.trace == old(engine.trace)
      ensures old(positionIsDirty && !isDisposed) ==>
        && written <= |texelProvider|
        && Calls(writes) == WriteMarkers(texelProvider[..written], buffer)
        && (threw <==> exists i | 0 <= i < |texelProvider| :: texelProvider[i].ThrowsOnWrite(engine.alive, engine.sharedMesh))
        && (forall i | 0 <= i < written - 1 :: !texelProvider[i].ThrowsOnWrite(engine.alive, engine.sharedMesh))
      ensures old(positionIsDirty && !isDisposed) && threw ==>
        && 0 < written && texelProvider[written - 1].ThrowsOnWrite(engine.alive, engine.sharedMesh)
        && positionIsDirty && worldTexelTexture == old(worldTexelTexture) && positionTexture == old(positionTexture)
        && engine.trace == old(engine.trace) + Prologue(buffer, worldBufferWidth, worldBufferHeight) + writes
      ensures old(positionIsDirty && !isDisposed) && !threw ==>
        && written == |texelProvider| && !positionIsDirty
        && Fits(worldTexelTexture, worldBufferWidth, worldBufferHeight)
        && (Fits(old(worldTexelTexture), worldBufferWidth, worldBufferHeight) ==> worldTexelTexture == old(worldTexelTexture))
        && positionTexture == Some(worldTexelTexture.value.id)
        && (!Fits(old(worldTexelTexture), worldBufferWidth, worldBufferHeight) ==> worldTexelTexture.value.id != buffer)
        && engine.trace == old(engine.trace) + Prologue(buffer, worldBufferWidth, worldBufferHeight) + writes
             + Reallocation(old(worldTexelTexture), worldTexelTexture.value.id, worldBufferWidth, worldBufferHeight)
             + [Blit(Some(buffer), worldTexelTexture.value.id, PositionExpand), ReleaseTemporary(buffer)]
    {
      threw, buffer, written, writes := false, 0, 0, [];
      if positionIsDirty && !isDisposed {
        threw, buffer, written, writes := Rebuild(engine);
      }
    }

    /** The body of a rebuild, run on a dirty live canvas. */
    method Rebuild(engine: Engine) returns (threw: bool, ghost buffer: TextureId, ghost written: nat, ghost writes: seq<Event>)
      requires Valid() && engine.Valid() && engine !in Repr && positionIsDirty && !isDisposed
      modifies Repr, engine`layer, engine`trace, engine`nextId
      ensures Valid() && engine.Valid() && Repr == old(Repr)
      ensures texelProvider == old(texelProvider) && isDisposed == old(isDisposed)
      ensures positionBakeLayer == old(positionBakeLayer)
      ensures engine.layer == old(engine.layer)
      ensures
        && written <= |texelProvider|
        && Calls(writes) == WriteMarkers(texelProvider[..written], buffer)
        && (threw <==> exists i | 0 <= i < |texelProvider| :: texelProvider[i].ThrowsOnWrite(engine.alive, engine.sharedMesh))
        && (forall i | 0 <= i < written - 1 :: !texelProvider[i].ThrowsOnWrite(engine.alive, engine.sharedMesh))
      ensures threw ==>
        && 0 < written && texelProvider[written - 1].ThrowsOnWrite(engine.alive, engine.sharedMesh)
        && positionIsDirty && worldTexelTexture == old(worldTexelTexture) && positionTexture == old(positionTexture)
        && engine.trace == old(engine.trace) + Prologue(buffer, worldBufferWidth, worldBufferHeight) + writes
      ensures !threw ==>
        && written == |texelProvider| && !positionIsDirty
        && Fits(worldTexelTexture, worldBufferWidth, worldBufferHeight)
        && (Fits(old(worldTexelTexture), worldBufferWidth, worldBufferHeight) ==> worldTexelTexture == old(worldTexelTexture))
        && positionTexture == Some(worldTexelTexture.value.id)
        && (!Fits(old(worldTexelTexture), worldBufferWidth, worldBufferHeight) ==> worldTexelTexture.value.id != buffer)
        && engine.trace == old(engine.trace) + Prologue(buffer, worldBufferWidth, worldBufferHeight) + writes
             + Reallocation(old(worldTexelTexture), worldTexelTexture.value.id, worldBufferWidth, worldBufferHeight)
             + [Blit(Some(buffer), worldTexelTexture.value.id, PositionExpand), ReleaseTemporary(buffer)]
    {
      var worldBuffer := engine.GetTemporaryTexture(worldBufferWidth, worldBufferHeight);
      buffer := worldBuffer;
      engine.IssueAll([SetActiveTarget(worldBuffer), ClearTarget(Transparent)]);
      ghost var begun := engine.trace;
      assert begun == old(engine.trace) + Prologue(buffer, worldBufferWidth, worldBufferHeight);
      threw, written, writes := WriteAndExpand(engine, worldBuffer);
    }

    /**
     * A rebuild once its `buffer` is cleared: every extractor is written into
     * it, in list order, until one throws; if none does, the persistent
     * texture is made to fit, `buffer` is expanded into it and released, and
     * the canvas is clean.
     */
    method WriteAndExpand(engine: Engine, buffer: TextureId) returns (threw: bool, ghost written: nat, ghost writes: seq<Event>)
      requires Valid() && engine.Valid() && engine !in Repr && positionIsDirty && !isDisposed && buffer < engine.nextId
      modifies Repr, engine`layer, engine`trace, engine`nextId
      ensures Valid() && engine.Valid() && Repr == old(Repr)
      ensures texelProvider == old(texelProvider) && isDisposed == old(isDisposed)
      ensures positionBakeLayer == old(positionBakeLayer)
      ensures engine.layer == old(engine.layer)
      ensures
        && written <= |texelProvider|
        && Calls(writes) == WriteMarkers(texelProvider[..written], buffer)
        && (threw <==> exists i | 0 <= i < |texelProvider| :: texelProvider[i].ThrowsOnWrite(engine.alive, engine.sharedMesh))
        && (forall i | 0 <= i < written - 1 :: !texelProvider[i].ThrowsOnWrite(engine.alive, engine.sharedMesh))
      ensures threw ==>
        && 0 < written && texelProvider[written - 1].ThrowsOnWrite(engine.alive, engine.sharedMesh)
        && positionIsDirty && worldTexelTexture == old(worldTexelTexture) && positionTexture == old(positionTexture)
        && engine.trace == old(engine.trace) + writes
      ensures !threw ==>
        && written == |texelProvider| && !positionIsDirty
        && Fits(worldTexelTexture, worldBufferWidth, worldBufferHeight)
        && (Fits(old(worldTexelTexture), worldBufferWidth, worldBufferHeight) ==> worldTexelTexture == old(worldTexelTexture))
        && positionTexture == Some(worldTexelTexture.value.id)
        && (!Fits(old(worldTexelTexture), worldBufferWidth, worldBufferHeight) ==> worldTexelTexture.value.id != buffer)
        && engine.trace == old(engine.trace) + writes
             + Reallocation(old(worldTexelTexture), worldTexelTexture.value.id, worldBufferWidth, worldBufferHeight)
             + [Blit(Some(buffer), worldTexelTexture.value.id, PositionExpand), ReleaseTemporary(buffer)]
    {
      threw, written, writes := WriteProviders(engine, buffer);
      if threw {
        return;
      }
      assert texelProvider[..written] == texelProvider;
      ExpandInto(engine, buffer);
    }

    /**
     * The end of a rebuild that did not throw: makes the persistent texture
     * fit, expands `buffer` into it, releases `buffer` and marks the canvas
     * clean.
     */
    method ExpandInto(engine: Engine, buffer: TextureId)
      requires Valid() && engine !in Repr && !isDisposed && buffer < engine.nextId
      modifies this`worldTexelTexture, this`positionTexture, this`positionIsDirty, engine`nextId, engine`trace
      ensures Valid() && !positionIsDirty
      ensures Fits(worldTexelTexture, worldBufferWidth, worldBufferHeight)
      ensures Fits(old(worldTexelTexture), worldBufferWidth, worldBufferHeight) ==> worldTexelTexture == old(worldTexelTexture)
      ensures positionTexture == Some(worldTexelTexture.value.id)
      ensures !Fits(old(worldTexelTexture), worldBufferWidth, worldBufferHeight) ==> worldTexelTexture.value.id != buffer
      ensures engine.trace == old(engine.trace)
        + Reallocation(old(worldTexelTexture), worldTexelTexture.value.id, worldBufferWidth, worldBufferHeight)
        + [Blit(Some(buffer), worldTexelTexture.value.id, PositionExpand), ReleaseTemporary(buffer)]
    {
      FitWorldTexture(engine);
      engine.IssueAll([Blit(Some(buffer), worldTexelTexture.value.id, PositionExpand), ReleaseTemporary(buffer)]);
      positionIsDirty := false;
    }

    /**
     * Makes the persistent texture fit the configured size: a texture of
     * another size is released, and a texture is created and bound when there
     * is none. A texture that already fits is kept.
     */
    method FitWorldTexture(engine: Engine)
      modifies this`worldTexelTexture, this`positionTexture, engine`nextId, engine`trace
      ensures Fits(worldTexelTexture, worldBufferWidth, worldBufferHeight)
      ensures Fits(old(worldTexelTexture), worldBufferWidth, worldBufferHeight) ==>
        worldTexelTexture == old(worldTexelTexture) && positionTexture == old(positionTexture)
      ensures !Fits(old(worldTexelTexture), worldBufferWidth, worldBufferHeight) ==>
        worldTexelTexture.value.id == old(engine.nextId) && positionTexture == Some(worldTexelTexture.value.id)
      ensures engine.trace == old(engine.trace)
        + Reallocation(old(worldTexelTexture), worldTexelTexture.value.id, worldBufferWidth, worldBufferHeight)
    {
      if worldTexelTexture.Some?
        && (worldTexelTexture.value.width != worldBufferWidth || worldTexelTexture.value.height != worldBufferHeight)
      {
        ReleaseWorldTexture(engine);
      }
      if worldTexelTexture.None? {
        var id := engine.CreateRenderTexture(worldBufferWidth, worldBufferHeight);
        worldTexelTexture := Some(RenderTexture(id, worldBufferWidth, worldBufferHeight));
        positionTexture := Some(id);
        engine.Issue(BindPositionTexture(id));
      }
    }

    /**
     * The loop of a rebuild: calls every extractor on `buffer` once, in list
     * order, and stops after the first one that throws.
     */
    method WriteProviders(engine: Engine, buffer: TextureId) returns (threw: bool, ghost written: nat, ghost writes: seq<Event>)
      requires Valid() && engine.Valid() && engine !in Repr
      modifies Repr - {this}, engine`layer, engine`trace
      ensures Valid() && engine.Valid()
      ensures engine.layer == old(engine.layer)
      ensures engine.trace == old(engine.trace) + writes
      ensures written <= |texelProvider|
      ensures Calls(writes) == WriteMarkers(texelProvider[..written], buffer)
      ensures forall j | 0 <= j < written - 1 :: !texelProvider[j].ThrowsOnWrite(engine.alive, engine.sharedMesh)
      ensures threw ==> 0 < written && texelProvider[written - 1].ThrowsOnWrite(engine.alive, engine.sharedMesh)
      ensures !threw ==> written == |texelProvider|
      ensures threw <==> exists i | 0 <= i < |texelProvider| :: texelProvider[i].ThrowsOnWrite(engine.alive, engine.sharedMesh)
    {
      threw, written, writes := false, 0, [];
      var i := 0;
      while i < |texelProvider|
        invariant 0 <= i <= |texelProvider| && written == i
        invariant Valid() && engine.Valid()
        invariant engine.layer == old(engine.layer)
        invariant engine.trace == old(engine.trace) + writes
        invariant Calls(writes) == WriteMarkers(texelProvider[..i], buffer)
        invariant forall j | 0 <= j < i :: !texelProvider[j].ThrowsOnWrite(engine.alive, engine.sharedMesh)
      {
        var t;
        ghost var issued;
        t, issued := WriteOne(engine, i, buffer);
        WriteMarkersStep(writes, texelProvider, i, buffer, issued);
        writes := writes + [WriteCalled(texelProvider[i].Obj(), buffer)] + issued;
        i := i + 1;
        written := i;
        if t {
          threw := true;
          return;
        }
      }
    }

    /** One step of the rebuild loop: calls extractor `i` on `buffer`. */
    method WriteOne(engine: Engine, i: nat, buffer: TextureId) returns (threw: bool, ghost issued: seq<Event>)
      requires Valid() && engine.Valid() && engine !in Repr && i < |texelProvider|
      modifies Repr - {this}, engine`layer, engine`trace
      ensures Valid() && engine.Valid()
      ensures engine.layer == old(engine.layer)
      ensures threw == texelProvider[i].ThrowsOnWrite(engine.alive, engine.sharedMesh)
      ensures engine.trace == old(engine.trace) + [WriteCalled(texelProvider[i].Obj(), buffer)] + issued
      ensures Calls(issued) == []
    {
      threw, issued := Write(texelProvider[i], engine, buffer);
    }

    /**
     * Forces a rebuild: on a live canvas every extractor is written once, in
     * list order, and unless one throws the rebuild completes and leaves the
     * canvas clean with a texture of the configured size.
     */
    method UpdatePosition(engine: Engine) returns (threw: bool, ghost rebuild: seq<Event>)
      requires Valid() && engine.Valid() && engine !in Repr
      modifies Repr, engine`layer, engine`trace, engine`nextId
      ensures Valid() && engine.Valid() && Repr == old(Repr)
      ensures texelProvider == old(texelProvider) && isDisposed == old(isDisposed)
      ensures positionBakeLayer == old(positionBakeLayer)
      ensures engine.layer == old(engine.layer)
      ensures engine.trace == old(engine.trace) + rebuild
      ensures old(isDisposed) ==> !threw && rebuild == []
      ensures old(worldTexelTexture).Some? ==> worldTexelTexture == old(worldTexelTexture)
      ensures !old(isDisposed) ==>
        (threw <==> exists i | 0 <= i < |texelProvider| :: texelProvider[i].ThrowsOnWrite(engine.alive, engine.sharedMesh))
      ensures threw ==>
        positionIsDirty && worldTexelTexture == old(worldTexelTexture) && positionTexture == old(positionTexture)
      ensures !old(isDisposed) && !threw ==>
        && !positionIsDirty && Fits(worldTexelTexture, worldBufferWidth, worldBufferHeight)
        && CompleteRebuild(rebuild, texelProvider, worldBufferWidth, worldBufferHeight)
    {
      MarkPositionAsDirty();
      ghost var buffer, written, writes;
      threw, buffer, written, writes := UpdatePositionIfDirty(engine);
      rebuild := engine.trace[|old(engine.trace)|..];
      assert engine.trace == old(engine.trace) + rebuild;
      if !old(isDisposed) && !threw {
        assert rebuild == Prologue(buffer, worldBufferWidth, worldBufferHeight) + writes
          + Reallocation(old(worldTexelTexture), worldTexelTexture.value.id, worldBufferWidth, worldBufferHeight)
          + [Blit(Some(buffer), worldTexelTexture.value.id, PositionExpand), ReleaseTemporary(buffer)];
        RebuildIsComplete(buffer, worldBufferWidth, worldBufferHeight, texelProvider, writes,
          Reallocation(old(worldTexelTexture), worldTexelTexture.value.id, worldBufferWidth, worldBufferHeight),
          worldTexelTexture.value.id);
      }
    }

    /**
     * Paints the brush into `target`. A disposed canvas is left as it is.
     * Otherwise the position texture is first brought up to date (`rebuild`
     * holds what that issued, nothing when the canvas was clean), then the
     * decal parameters derived from the brush and the call are set and one
     * blit of the brush image into `target` runs. The extractor list never
     * changes, and the canvas is clean afterwards unless the rebuild threw.
     */
    method Paint(engine: Engine, target: TextureId, brush: BrushParams, color: Color, position: Vector3, rotation: Quaternion, size: Vector3)
      returns (threw: bool, ghost rebuild: seq<Event>)
      requires Valid() && engine.Valid() && engine !in Repr
      modifies Repr, engine`layer, engine`trace, engine`nextId
      ensures Valid() && engine.Valid() && Repr == old(Repr)
      ensures texelProvider == old(texelProvider) && isDisposed == old(isDisposed)
      ensures positionBakeLayer == old(positionBakeLayer)
      ensures engine.layer == old(engine.layer)
      ensures old(isDisposed) ==> !threw && unchanged(this) && engine.trace == old(engine.trace)
      ensures old(worldTexelTexture).Some? ==> worldTexelTexture == old(worldTexelTexture)
      ensures !old(isDisposed) ==>
        && (threw <==> old(positionIsDirty) && exists i | 0 <= i < |texelProvider| :: texelProvider[i].ThrowsOnWrite(engine.alive, engine.sharedMesh))
        && (!old(positionIsDirty) ==> rebuild == [] && worldTexelTexture == old(worldTexelTexture))
        && (old(positionIsDirty) && !threw ==> CompleteRebuild(rebuild, texelProvider, worldBufferWidth, worldBufferHeight))
        && (threw ==>
              && positionIsDirty && worldTexelTexture == old(worldTexelTexture) && positionTexture == old(positionTexture)
              && engine.trace == old(engine.trace) + rebuild)
        && (!threw ==>
              && !positionIsDirty && Fits(worldTexelTexture, worldBufferWidth, worldBufferHeight)
              && engine.trace == old(engine.trace) + rebuild
                   + DecalCalls(target, brush, PaintParameters(brush, color, position, rotation, size)))
    {
      rebuild := [];
      if isDisposed {
        threw := false;
        return;
      }
      ghost var buffer, written, writes;
      threw, buffer, written, writes := UpdatePositionIfDirty(engine);
      rebuild := engine.trace[|old(engine.trace)|..];
      assert engine.trace == old(engine.trace) + rebuild;
      if threw {
        return;
      }
      if old(positionIsDirty) {
        assert rebuild == Prologue(buffer, worldBufferWidth, worldBufferHeight) + writes
          + Reallocation(old(worldTexelTexture), worldTexelTexture.value.id, worldBufferWidth, worldBufferHeight)
          + [Blit(Some(buffer), worldTexelTexture.value.id, PositionExpand), ReleaseTemporary(buffer)];
        RebuildIsComplete(buffer, worldBufferWidth, worldBufferHeight, texelProvider, writes,
          Reallocation(old(worldTexelTexture), worldTexelTexture.value.id, worldBufferWidth, worldBufferHeight),
          worldTexelTexture.value.id);
      }
      engine.Issue(SetDecal(PaintParameters(brush, color, position, rotation, size)));
      engine.Issue(Blit(brush.texture, target, DecalPaint));
    }

    /** Disposes every extractor once, in list order, then empties the list. */
    method DisposeTexelProviders(engine: Engine) returns (ghost disposals: seq<Event>)
      requires this in Repr && ProvidersValid() && engine !in Repr
      modifies Repr, engine`trace
      ensures ProvidersValid() && Repr == old(Repr) && texelProvider == []
      ensures positionIsDirty == old(positionIsDirty) && isDisposed == old(isDisposed)
      ensures worldTexelTexture == old(worldTexelTexture) && positionBakeLayer == old(positionBakeLayer)
      ensures engine.trace == old(engine.trace) + disposals
      ensures Calls(disposals) == DisposeMarkers(old(texelProvider))
      ensures forall i | 0 <= i < |old(texelProvider)| :: old(texelProvider)[i].IsDisposed()
    {
      disposals := [];
      var i := 0;
      while i < |texelProvider|
        invariant 0 <= i <= |texelProvider|
        invariant this in Repr && ProvidersValid() && unchanged(this)
        invariant engine.trace == old(engine.trace) + disposals
        invariant Calls(disposals) == DisposeMarkers(texelProvider[..i])
        invariant forall j | 0 <= j < i :: texelProvider[j].IsDisposed()
      {
        var e := texelProvider[i];
        ghost var issued;
        issued := TexelExtractor.Dispose(e, engine);
        DisposeMarkersStep(disposals, texelProvider, i, issued);
        disposals := disposals + [DisposeCalled(e.Obj())] + issued;
        i := i + 1;
      }
      assert texelProvider[..i] == texelProvider;
      texelProvider := [];
    }

    /**
     * Disposes the canvas once: releases the persistent texture, disposes
     * every extractor once, in order, empties the list and marks the canvas
     * disposed. A second call changes nothing.
     */
    method Dispose(engine: Engine) returns (ghost disposals: seq<Event>)
      requires Valid() && engine !in Repr
      modifies Repr, engine`trace
      ensures Valid() && Repr == old(Repr)
      ensures isDisposed && texelProvider == [] && worldTexelTexture == None
      ensures positionIsDirty == old(positionIsDirty) && positionBakeLayer == old(positionBakeLayer)
      ensures old(isDisposed) ==> unchanged(this) && engine.trace == old(engine.trace)
      ensures !old(isDisposed) ==>
        && engine.trace == old(engine.trace) + ReleaseOf(old(worldTexelTexture)) + disposals
        && Calls(disposals) == DisposeMarkers(old(texelProvider))
        && (forall i | 0 <= i < |old(texelProvider)| :: old(texelProvider)[i].IsDisposed())
    {
      disposals := [];
      if !isDisposed {
        ReleaseWorldTexture(engine);
        disposals := DisposeTexelProviders(engine);
        isDisposed := true;
      }
    }
  }

  /**
   * A rebuild that ran to the end: it opens with the prologue on `buffer`,
   * calls every extractor of `es` on the buffer once, in order, and ends by
   * releasing the buffer.
   */
  ghost predicate CompleteRebuild(rebuild: seq<Event>, es: seq<Extractor>, width: int, height: int) {
    && |rebuild| >= 5 && rebuild[0].GetTemporary?
    && var buffer := rebuild[0].buffer;
    && rebuild[..3] == Prologue(buffer, width, height)
    && Calls(rebuild) == WriteMarkers(es, buffer)
    && rebuild[|rebuild| - 1] == ReleaseTemporary(buffer)
  }

  /** The trace `UpdatePositionIfDirty` leaves after a rebuild without a throw is a complete rebuild. */
  lemma RebuildIsComplete(buffer: TextureId, width: int, height: int, es: seq<Extractor>, writes: seq<Event>,
                          realloc: seq<Event>, texture: TextureId)
    requires Calls(writes) == WriteMarkers(es, buffer)
    requires forall e | e in realloc :: !e.IsInterfaceCall()
    ensures CompleteRebuild(Prologue(buffer, width, height) + writes + realloc
                              + [Blit(Some(buffer), texture, PositionExpand), ReleaseTemporary(buffer)], es, width, height)
  {
    var r := Prologue(buffer, width, height) + writes + realloc + [Blit(Some(buffer), texture, PositionExpand), ReleaseTemporary(buffer)];
    assert r == Prologue(buffer, width, height) + writes + (realloc + [Blit(Some(buffer), texture, PositionExpand), ReleaseTemporary(buffer)]);
    CallsOfEngineCalls(Prologue(buffer, width, height), writes, realloc + [Blit(Some(buffer), texture, PositionExpand), ReleaseTemporary(buffer)]);
  }

  /** Engine calls around the interface calls add nothing to the interface calls. */
  lemma CallsOfEngineCalls(before: seq<Event>, middle: seq<Event>, after: seq<Event>)
    requires forall e | e in before :: !e.IsInterfaceCall()
    requires forall e | e in after :: !e.IsInterfaceCall()
    ensures Calls(before + middle + after) == Calls(middle)
  {
    CallsAppend(before + middle, after);
    CallsAppend(before, middle);
    NoCalls(before);
    NoCalls(after);
  }

  lemma NoCalls(t: seq<Event>)
    requires forall e | e in t :: !e.IsInterfaceCall()
    ensures Calls(t) == []
  {
  }
}

=== FILE: skinned_extractor.dfy ===
/**
 * The extractor for a group of skinned renderers. Skinned positions only exist
 * inside a scene render, so it owns a disabled camera that sees only the bake
 * layer, moves the group onto that layer, renders the scene with the
 * position-bake shader into the target buffer, and moves the group back.
 */
module SkinnedExtractor {
  import opened UnityEngine
  import opened LayerSwap

  class SkinnedMeshTexelExtractor {
    var renderers: Option<seq<ObjectId>>
    var cameraObject: Option<ObjectId>
    var renderCamera: Camera?
    const originalLayers: array<int>
    const positionBakeLayer: int
    /** The camera component the constructor creates; `renderCamera` until disposal. */
    ghost const camera: Camera
    /** The group the constructor was given; `renderers` until disposal. */
    ghost const group: seq<ObjectId>
    ghost const Repr: set<object>

    ghost predicate Valid()
      reads this, camera
    {
      && Repr == {this, originalLayers, camera}
      && CameraSetUp()
      && (renderCamera != null ==> renderCamera == camera)
      && (renderers.Some? ==>
            renderers.value == group && renderCamera != null && cameraObject.Some? && originalLayers.Length == |group|)
      && (renderers.None? ==> IsDisposed())
    }

    /**
     * The camera set-up the constructor makes and nothing undoes: disabled,
     * clearing nothing, without occlusion culling, culling spherically and
     * seeing only the bake layer.
     */
    ghost predicate CameraSetUp()
      reads camera
    {
      && !camera.enabled && camera.clearFlags == Nothing
      && !camera.useOcclusionCulling && camera.layerCullSpherical
      && camera.cullingMask == LayerBit(positionBakeLayer)
    }

    /** A write reads `renderers[0]` first, which throws on an empty group (destroyed renderers are skipped). */
    predicate ThrowsOnWrite()
      reads this
    {
      renderers == Some([])
    }

    /** All three references are cleared, which is what `Dispose` leaves. */
    predicate IsDisposed()
      reads this
    {
      renderers.None? && cameraObject.None? && renderCamera == null
    }

    /**
     * Keeps the group, sizes `originalLayers` to it, and creates a game object
     * with a disabled camera that clears nothing, does no occlusion culling and
     * sees only the bake layer.
     */
    constructor (engine: Engine, renderers: seq<ObjectId>, positionBakeLayer: int)
      modifies engine`nextId, engine`trace
      ensures Valid() && fresh(Repr)
      ensures this.renderers == Some(renderers) && group == renderers && this.positionBakeLayer == positionBakeLayer
      ensures originalLayers.Length == |renderers|
      ensures cameraObject.Some? && engine.trace == old(engine.trace) + [CreateGameObject(cameraObject.value)]
      ensures renderCamera != null && !renderCamera.enabled && renderCamera.clearFlags == Nothing
      ensures !renderCamera.useOcclusionCulling && renderCamera.layerCullSpherical
      ensures renderCamera.cullingMask == LayerBit(positionBakeLayer) && renderCamera.targetTexture == None
    {
      this.renderers := Some(renderers);
      group := renderers;
      this.positionBakeLayer := positionBakeLayer;
      originalLayers := new int[|renderers|];
      var obj := engine.CreateObject();
      cameraObject := Some(obj);
      var cam := new Camera();
      cam.enabled := false;
      cam.clearFlags := Nothing;
      cam.useOcclusionCulling := false;
      cam.layerCullSpherical := true;
      cam.cullingMask := LayerBit(positionBakeLayer);
      renderCamera := cam;
      camera := cam;
      Repr := {this, originalLayers, cam};
    }

    /**
     * Bakes the group into `texture`. Nothing happens after `Dispose`; an empty
     * group throws before any change. Otherwise every live renderer is on the
     * bake layer when the render runs, with its previous layer saved at its
     * index, the camera renders into `texture` and is detached afterwards, and
     * every layer is back to its value on entry. Destroyed renderers are
     * skipped: their slot and their layer are left alone. The restore loop runs
     * in the opposite order to the save loop (see `WriteWorldTexelTextureAsWritten`).
     */
    method WriteWorldTexelTexture(engine: Engine, texture: TextureId) returns (threw: bool)
      requires Valid() && engine.Valid()
      modifies engine`layer, engine`trace, originalLayers, camera`targetTexture
      ensures Valid() && engine.Valid()
      ensures threw == ThrowsOnWrite()
      ensures renderers.None? || threw ==>
        engine.trace == old(engine.trace) && engine.layer == old(engine.layer) && unchanged(originalLayers, camera)
      ensures renderers.Some? && !threw ==>
        var s := Saved(renderers.value, engine.alive, positionBakeLayer, old(engine.layer), old(originalLayers[..]));
        && originalLayers[..] == s.saved
        && engine.trace == old(engine.trace) + [RenderWithShader(Some(texture), LayerBit(positionBakeLayer), engine.alive, s.layers)]
        && (forall i | 0 <= i < |renderers.value| && renderers.value[i] in engine.alive ::
              s.layers[renderers.value[i]] == positionBakeLayer)
        && engine.layer == old(engine.layer)
        && camera.targetTexture == None
    {
      if renderers.None? {
        return false;
      }
      var rs := renderers.value;
      if |rs| == 0 {
        return true;
      }
      SaveAndSwap(engine, rs, originalLayers, positionBakeLayer);
      SwapMovesGroupToBakeLayer(rs, engine.alive, positionBakeLayer, old(engine.layer), old(originalLayers[..]));
      renderCamera.targetTexture := Some(texture);
      engine.Render(renderCamera);
      renderCamera.targetTexture := None;
      RestoreAscending(engine, rs, originalLayers);
      RestoresAllLayers(rs, engine.alive, positionBakeLayer, old(engine.layer), old(originalLayers[..]));
      threw := false;
    }

    /**
     * The bake as the source writes it. Both loops visit the group from last
     * to first, so a renderer listed twice ends on the bake layer (see
     * `LayerSwap.AsWrittenLayers`); and the bounds of `renderers[0]` and of
     * each visited renderer are read before its liveness test, so an empty
     * group or a destroyed renderer throws in the save loop, before the
     * render, leaving every renderer the loop already moved on the bake layer
     * (see `LayerSwap.BoundsThrowStrandsLaterRenderers`).
     */
    method WriteWorldTexelTextureAsWritten(engine: Engine, texture: TextureId) returns (threw: bool)
      requires Valid() && engine.Valid()
      modifies engine`layer, engine`trace, originalLayers, camera`targetTexture
      ensures Valid() && engine.Valid()
      ensures threw == (renderers.Some? && SaveThrows(renderers.value, engine.alive))
      ensures renderers.None? ==>
        engine.trace == old(engine.trace) && engine.layer == old(engine.layer) && unchanged(originalLayers, camera)
      ensures threw ==>
        && engine.trace == old(engine.trace) && unchanged(camera)
        && Swap(engine.layer, originalLayers[..])
           == SavedAsWritten(renderers.value, engine.alive, positionBakeLayer, old(engine.layer), old(originalLayers[..]))
      ensures renderers.Some? && !threw ==>
        var s := Saved(renderers.value, engine.alive, positionBakeLayer, old(engine.layer), old(originalLayers[..]));
        && originalLayers[..] == s.saved
        && engine.trace == old(engine.trace) + [RenderWithShader(Some(texture), LayerBit(positionBakeLayer), engine.alive, s.layers)]
        && engine.layer == LayersAfterAsWritten(renderers.value, engine.alive, positionBakeLayer, old(engine.layer), old(originalLayers[..]))
        && camera.targetTexture == None
    {
      if renderers.None? {
        return false;
      }
      var rs := renderers.value;
      threw := SaveAndSwapAsWritten(engine, rs, originalLayers, positionBakeLayer);
      if threw {
        return;
      }
      renderCamera.targetTexture := Some(texture);
      engine.Render(renderCamera);
      renderCamera.targetTexture := None;
      RestoreDescending(engine, rs, originalLayers);
    }

    /** Destroys the camera's game object and clears every reference. */
    method Dispose(engine: Engine)
      requires Valid()
      modifies this, engine`trace
      ensures Valid() && IsDisposed()
      ensures engine.trace == old(engine.trace) + [DestroyObject(old(cameraObject))]
    {
      engine.Issue(DestroyObject(cameraObject));
      renderers := None;
      cameraObject := None;
      renderCamera := null;
    }
  }
}

=== FILE: static_extractor.dfy ===
/**
 * The extractor for one static mesh: it bakes the mesh by drawing it once,
 * with the position-bake material, at the renderer's current transform.
 */
module StaticExtractor {
  import opened UnityEngine

  class StaticMeshTexelExtractor {
    var renderer: Option<ObjectId>
    var filter: Option<ObjectId>
    /** The renderer the constructor was given; `renderer` until disposal. */
    ghost const boundRenderer: ObjectId
    /** The filter the constructor was given; `filter` until disposal. */
    ghost const boundFilter: ObjectId
    ghost const Repr: set<object>

    ghost predicate Valid()
      reads this
    {
      && Repr == {this}
      && (IsDisposed() || (renderer == Some(boundRenderer) && filter == Some(boundFilter)))
    }

    /** Both references are cleared, which is what `Dispose` leaves. */
    predicate IsDisposed()
      reads this
    {
      renderer.None? && filter.None?
    }

    /**
     * Drawing a missing mesh throws: a write before disposal throws exactly
     * when the renderer and the filter are live and the filter has no mesh.
     */
    ghost predicate ThrowsOnWrite(alive: set<ObjectId>, meshes: map<ObjectId, MeshId>) {
      boundRenderer in alive && boundFilter in alive && boundFilter !in meshes
    }

    constructor (renderer: ObjectId, filter: ObjectId)
      ensures Valid() && fresh(Repr)
      ensures this.renderer == Some(renderer) && this.filter == Some(filter)
    {
      this.renderer := Some(renderer);
      this.filter := Some(filter);
      boundRenderer := renderer;
      boundFilter := filter;
      Repr := {this};
    }

    /**
     * Issues exactly one draw of the filter's mesh with the renderer's current
     * local-to-world matrix when both the renderer and the filter are live and
     * the filter has a mesh; throws, issuing nothing, when the mesh is
     * missing; and issues nothing otherwise (in particular after `Dispose`).
     */
    method WriteWorldTexelTexture(engine: Engine, texture: TextureId) returns (threw: bool)
      requires Valid() && engine.Valid()
      modifies engine`trace
      ensures threw == (!IsDisposed() && ThrowsOnWrite(engine.alive, engine.sharedMesh))
      ensures engine.IsAlive(renderer) && engine.IsAlive(filter) && !threw ==>
        engine.trace == old(engine.trace)
          + [DrawMeshNow(PositionBake, engine.sharedMesh[filter.value], engine.localToWorld[renderer.value])]
      ensures !(engine.IsAlive(renderer) && engine.IsAlive(filter)) || threw ==> engine.trace == old(engine.trace)
      ensures IsDisposed() ==> !threw && engine.trace == old(engine.trace)
    {
      if engine.IsAlive(renderer) && engine.IsAlive(filter) {
        var mesh := engine.SharedMesh(filter.value);
        if mesh.None? {
          return true;
        }
        engine.Issue(DrawMeshNow(PositionBake, mesh.value, engine.localToWorld[renderer.value]));
      }
      threw := false;
    }

    /** Clears both references; a second call leaves the same state. */
    method Dispose()
      requires Valid()
      modifies this
      ensures Valid() && IsDisposed()
    {
      renderer := None;
      filter := None;
    }
  }
}

=== FILE: texel_extractor.dfy ===
/**
 * `IMeshWorldTexelExtractor`: the capability both extractors provide (write
 * world positions into a buffer, dispose), as a tagged variant with one case
 * per implementation. Each call through the interface is recorded in the
 * engine trace, so that what the canvas does with its extractors can be
 * stated over the trace.
 */
module TexelExtractor {
  import opened UnityEngine
  import opened StaticExtractor
  import opened SkinnedExtractor

  datatype Extractor = Static(s: StaticMeshTexelExtractor) | Skinned(k: SkinnedMeshTexelExtractor)
  {
    /** The extractor object itself. */
    ghost function Obj(): object {
      match this
      case Static(s) => s
      case Skinned(k) => k
    }

    /** The objects the extractor owns. */
    ghost function Repr(): set<object> {
      match this
      case Static(s) => s.Repr
      case Skinned(k) => k.Repr
    }

    /** The objects a write changes. */
    ghost function WriteFrame(): set<object> {
      match this
      case Static(s) => {}
      case Skinned(k) => {k.originalLayers, k.camera}
    }

    ghost predicate Valid()
      reads Obj(), WriteFrame()
    {
      match this
      case Static(s) => s.Valid()
      case Skinned(k) => k.Valid()
    }

    /**
     * Writing a live extractor throws exactly when it is a static one whose
     * live filter has no mesh, or a skinned one built over an empty group.
     */
    ghost predicate ThrowsOnWrite(alive: set<ObjectId>, meshes: map<ObjectId, MeshId>) {
      match this
      case Static(s) => s.ThrowsOnWrite(alive, meshes)
      case Skinned(k) => k.group == []
    }

    ghost predicate IsDisposed()
      reads Obj()
    {
      match this
      case Static(s) => s.IsDisposed()
      case Skinned(k) => k.IsDisposed()
    }
  }

  /** The interface calls that writing each extractor of `es` into `buffer`, in order, records. */
  ghost function WriteMarkers(es: seq<Extractor>, buffer: TextureId): (m: seq<Event>)
    ensures |m| == |es|
  {
    seq(|es|, i requires 0 <= i < |es| => WriteCalled(es[i].Obj(), buffer))
  }

  /** The interface calls that disposing each extractor of `es`, in order, records. */
  ghost function DisposeMarkers(es: seq<Extractor>): (m: seq<Event>)
    ensures |m| == |es|
  {
    seq(|es|, i requires 0 <= i < |es| => DisposeCalled(es[i].Obj()))
  }

  /**
   * `WriteWorldTexelTexture` through the interface: records the call, then
   * issues the extractor's own engine calls. Layers are back to their values
   * on entry afterwards.
   */
  method Write(e: Extractor, engine: Engine, buffer: TextureId) returns (threw: bool, ghost issued: seq<Event>)
    requires e.Valid() && !e.IsDisposed() && engine.Valid()
    modifies e.WriteFrame(), engine`layer, engine`trace
    ensures e.Valid() && !e.IsDisposed() && engine.Valid()
    ensures threw == e.ThrowsOnWrite(engine.alive, engine.sharedMesh)
    ensures engine.layer == old(engine.layer)
    ensures engine.trace == old(engine.trace) + [WriteCalled(e.Obj(), buffer)] + issued
    ensures Calls(issued) == []
  {
    engine.trace := engine.trace + [WriteCalled(e.Obj(), buffer)];
    ghost var before := engine.trace;
    match e {
      case Static(s) =>
        threw := s.WriteWorldTexelTexture(engine, buffer);
      case Skinned(k) =>
        threw := k.WriteWorldTexelTexture(engine, buffer);
    }
    issued := engine.trace[|before|..];
    assert engine.trace == before + issued;
    assert |issued| <= 1;
  }

  /** `Dispose` through the interface: records the call, then disposes the extractor. */
  method Dispose(e: Extractor, engine: Engine) returns (ghost issued: seq<Event>)
    requires e.Valid()
    modifies e.Obj(), engine`trace
    ensures e.Valid() && e.IsDisposed()
    ensures engine.trace == old(engine.trace) + [DisposeCalled(e.Obj())] + issued
    ensures Calls(issued) == []
  {
    engine.trace := engine.trace + [DisposeCalled(e.Obj())];
    ghost var before := engine.trace;
    match e {
      case Static(s) =>
        s.Dispose();
      case Skinned(k) =>
        k.Dispose(engine);
    }
    issued := engine.trace[|before|..];
    assert engine.trace == before + issued;
  }

  /** Writing one more extractor extends the recorded interface calls by its marker. */
  lemma WriteMarkersStep(before: seq<Event>, es: seq<Extractor>, i: nat, buffer: TextureId, issued: seq<Event>)
    requires i < |es| && Calls(before) == WriteMarkers(es[..i], buffer) && Calls(issued) == []
    ensures Calls(before + [WriteCalled(es[i].Obj(), buffer)] + issued) == WriteMarkers(es[..i + 1], buffer)
  {
    var m := WriteCalled(es[i].Obj(), buffer);
    assert [m][..0] == [];
    CallsAppend(before, [m]);
    CallsAppend(before + [m], issued);
    assert WriteMarkers(es[..i + 1], buffer) == WriteMarkers(es[..i], buffer) + [m];
  }

  /** Disposing one more extractor extends the recorded interface calls by its marker. */
  lemma DisposeMarkersStep(before: seq<Event>, es: seq<Extractor>, i: nat, issued: seq<Event>)
    requires i < |es| && Calls(before) == DisposeMarkers(es[..i]) && Calls(issued) == []
    ensures Calls(before + [DisposeCalled(es[i].Obj())] + issued) == DisposeMarkers(es[..i + 1])
  {
    var m := DisposeCalled(es[i].Obj());
    assert [m][..0] == [];
    CallsAppend(before, [m]);
    CallsAppend(before + [m], issued);
    assert DisposeMarkers(es[..i + 1]) == DisposeMarkers(es[..i]) + [m];
  }
}

=== FILE: unity_engine.dfy ===
/**
 * The part of the host engine that the canvas and its extractors touch:
 * identifiers for engine objects, the value types of the brush and decal
 * parameters, the camera component the skinned extractor owns, and the scene
 * state (liveness, layers, transforms) together with a ghost trace of the
 * GPU calls that were issued. What a GPU call does to pixels is not modelled:
 * each call only appends an event to the trace.
 */
module UnityEngine {

  datatype Option<+T> = None | Some(value: T)

  /** Engine objects (renderers, filters, game objects) are identified by number. */
  type ObjectId = nat
  type TextureId = nat
  type MeshId = nat
  /** A 4x4 transform matrix; its arithmetic is not modelled. */
  type Matrix = seq<real>

  datatype Vector3 = Vector3(x: real, y: real, z: real)
  datatype Color = Color(r: real, g: real, b: real, a: real)
  datatype Quaternion = Quaternion(x: real, y: real, z: real, w: real)

  /** `Vector3.one` */
  const One := Vector3(1.0, 1.0, 1.0)
  /** `Color.white` */
  const White := Color(1.0, 1.0, 1.0, 1.0)
  /** `Color.clear` */
  const Transparent := Color(0.0, 0.0, 0.0, 0.0)
  /** `Quaternion.identity` */
  const Identity := Quaternion(0.0, 0.0, 0.0, 1.0)

  /** `Vector3.Scale`: the componentwise product. */
  function Scale(a: Vector3, b: Vector3): Vector3 {
    Vector3(a.x * b.x, a.y * b.y, a.z * b.z)
  }

  /** `v * k` for a vector and a scalar. */
  function Times(v: Vector3, k: real): Vector3 {
    Vector3(v.x * k, v.y * k, v.z * k)
  }

  /** `a * b` for two colours: the componentwise product. */
  function Tint(a: Color, b: Color): Color {
    Color(a.r * b.r, a.g * b.g, a.b * b.b, a.a * b.a)
  }

  /** Componentwise `a <= b`. */
  predicate AtMost(a: Vector3, b: Vector3) {
    a.x <= b.x && a.y <= b.y && a.z <= b.z
  }

  /** `1 << layer` on a 32-bit int: C# takes the shift count modulo 32. */
  function LayerBit(layer: int): bv32 {
    (1 as bv32) << (layer % 32)
  }

  /**
   * The state of the decal material when the decal blit runs. The decal
   * transform is `TRS(position, rotation * baseRotation, size)`; the quaternion
   * product, the matrix and its inverse are not modelled, so the two rotation
   * factors are kept apart.
   */
  datatype DecalParameters = DecalParameters(
    position: Vector3,
    rotation: Quaternion,
    baseRotation: Quaternion,
    size: Vector3,
    smoothingMin: Vector3,
    smoothingMax: Vector3,
    color: Color)

  /** The shared materials built from the three hidden shaders. */
  datatype Material = PositionBake | PositionExpand | DecalPaint

  datatype ClearFlags = Skybox | SolidColor | DepthOnly | Nothing

  /** The calls into the engine that the trace records. */
  datatype Event =
    | GetTemporary(buffer: TextureId, width: int, height: int)
    | ReleaseTemporary(buffer: TextureId)
    | SetActiveTarget(target: TextureId)
    | ClearTarget(color: Color)
    | CreateTexture(texture: TextureId, width: int, height: int)
    | ReleaseTexture(texture: TextureId)
    | BindPositionTexture(texture: TextureId)
    | Blit(source: Option<TextureId>, destination: TextureId, material: Material)
    | SetDecal(decal: DecalParameters)
    | SetDecalTransform(transform: ObjectId, sprite: Option<TextureId>)
    | DrawMeshNow(material: Material, mesh: MeshId, matrix: Matrix)
    | RenderWithShader(cameraTarget: Option<TextureId>, cullingMask: bv32, alive: set<ObjectId>, layers: map<ObjectId, int>)
    | NameToLayer(name: string, layer: int)
    | CreateGameObject(obj: ObjectId)
    | DestroyObject(destroyed: Option<ObjectId>)
    | WriteCalled(extractor: object, buffer: TextureId)
    | DisposeCalled(extractor: object)
  {
    /** The calls made through the extractor interface, as opposed to engine calls. */
    predicate IsInterfaceCall() {
      WriteCalled? || DisposeCalled?
    }
  }

  /** The interface calls of a trace, in order. */
  ghost function Calls(t: seq<Event>): (c: seq<Event>)
    ensures forall e | e in c :: e in t && e.IsInterfaceCall()
  {
    if t == [] then []
    else if t[|t| - 1].IsInterfaceCall() then Calls(t[..|t| - 1]) + [t[|t| - 1]]
    else Calls(t[..|t| - 1])
  }

  lemma {:induction false} CallsAppend(a: seq<Event>, b: seq<Event>)
    ensures Calls(a + b) == Calls(a) + Calls(b)
    decreases |b|
  {
    if b == [] {
      assert a + b == a;
    } else {
      var b' := b[..|b| - 1];
      assert (a + b)[..|a + b| - 1] == a + b';
      CallsAppend(a, b');
    }
  }

  /** A persistent render texture; its size is fixed when it is created. */
  datatype RenderTexture = RenderTexture(id: TextureId, width: int, height: int)

  /** A texture exists and has the given size. */
  predicate Fits(t: Option<RenderTexture>, width: int, height: int) {
    t.Some? && t.value.width == width && t.value.height == height
  }

  /** The calls that release a persistent texture, if there is one. */
  function ReleaseOf(t: Option<RenderTexture>): seq<Event> {
    if t.Some? then [ReleaseTexture(t.value.id)] else []
  }

  /** The camera component the skinned extractor creates. */
  class Camera {
    var enabled: bool
    var clearFlags: ClearFlags
    var useOcclusionCulling: bool
    var layerCullSpherical: bool
    var cullingMask: bv32
    var targetTexture: Option<TextureId>

    /** `AddComponent<Camera>()`: an enabled camera that sees every layer and renders to the screen. */
    constructor ()
      ensures enabled && clearFlags == Skybox && useOcclusionCulling && !layerCullSpherical
      ensures cullingMask == 0xFFFF_FFFF && targetTexture == None
    {
      enabled := true;
      clearFlags := Skybox;
      useOcclusionCulling := true;
      layerCullSpherical := false;
      cullingMask := 0xFFFF_FFFF;
      targetTexture := None;
    }
  }

  /** The scene and the GPU as the model sees them. */
  class Engine {
    /** Objects that have not been destroyed: Unity's `if (o)` is `o in alive`. */
    var alive: set<ObjectId>
    /** The layer of the game object of each renderer. */
    var layer: map<ObjectId, int>
    /** The local-to-world matrix of each renderer. */
    var localToWorld: map<ObjectId, Matrix>
    /** The MeshFilter on the game object of a renderer, where there is one. */
    var meshFilter: map<ObjectId, ObjectId>
    /** The shared mesh of each filter that has one. */
    var sharedMesh: map<ObjectId, MeshId>
    /** The project's layer names, as `LayerMask.NameToLayer` reads them. */
    var layerNames: map<string, int>
    /** The next identifier handed out for a created texture or game object. */
    var nextId: nat
    /** The engine calls issued so far, oldest first. */
    ghost var trace: seq<Event>

    /** Every live object has a game object with a layer and a transform. */
    ghost predicate Valid()
      reads this
    {
      alive <= layer.Keys && alive <= localToWorld.Keys
    }

    /** Unity's implicit conversion of an object reference to `bool`. */
    predicate IsAlive(o: Option<ObjectId>)
      reads this
    {
      o.Some? && o.value in alive
    }

    /** `renderer.GetComponent<MeshFilter>()` */
    function GetMeshFilter(renderer: ObjectId): Option<ObjectId>
      reads this
    {
      if renderer in meshFilter then Some(meshFilter[renderer]) else None
    }

    /** `filter.sharedMesh`; `None` stands for a filter without a mesh. */
    function SharedMesh(filter: ObjectId): Option<MeshId>
      reads this
    {
      if filter in sharedMesh then Some(sharedMesh[filter]) else None
    }

    /** The layer index a name stands for, or -1 for an undefined name. */
    function LayerIndex(name: string): int
      reads this
    {
      if name in layerNames then layerNames[name] else -1
    }

    /** `LayerMask.NameToLayer` */
    method LayerFromName(name: string) returns (id: int)
      modifies this`trace
      ensures id == LayerIndex(name)
      ensures trace == old(trace) + [NameToLayer(name, id)]
    {
      id := LayerIndex(name);
      trace := trace + [NameToLayer(name, id)];
    }

    /** `RenderTexture.GetTemporary` */
    method GetTemporaryTexture(width: int, height: int) returns (buffer: TextureId)
      modifies this`nextId, this`trace
      ensures buffer == old(nextId) && nextId == old(nextId) + 1
      ensures trace == old(trace) + [GetTemporary(buffer, width, height)]
    {
      buffer := nextId;
      nextId := nextId + 1;
      trace := trace + [GetTemporary(buffer, width, height)];
    }

    /** `new RenderTexture(width, height, ...)` */
    method CreateRenderTexture(width: int, height: int) returns (texture: TextureId)
      modifies this`nextId, this`trace
      ensures texture == old(nextId) && nextId == old(nextId) + 1
      ensures trace == old(trace) + [CreateTexture(texture, width, height)]
    {
      texture := nextId;
      nextId := nextId + 1;
      trace := trace + [CreateTexture(texture, width, height)];
    }

    /** `new GameObject(...)` */
    method CreateObject() returns (obj: ObjectId)
      modifies this`nextId, this`trace
      ensures trace == old(trace) + [CreateGameObject(obj)]
    {
      obj := nextId;
      nextId := nextId + 1;
      trace := trace + [CreateGameObject(obj)];
    }

    /** `Camera.RenderWithShader`: records what the camera sees at the moment of the call. */
    method Render(camera: Camera)
      modifies this`trace
      ensures trace == old(trace) + [RenderWithShader(camera.targetTexture, camera.cullingMask, alive, layer)]
    {
      trace := trace + [RenderWithShader(camera.targetTexture, camera.cullingMask, alive, layer)];
    }

    /** A run of other engine calls, issued in order. */
    method IssueAll(es: seq<Event>)
      modifies this`trace
      ensures trace == old(trace) + es
    {
      trace := trace + es;
    }

    /** Any other engine call, which only appends its event. */
    method Issue(e: Event)
      modifies this`trace
      ensures trace == old(trace) + [e]
    {
      trace := trace + [e];
    }
  }
}
